=== FILE: README.md ===
# Hotel backend: pricing, stays and guests in Dafny

This project models the core of a small hotel reception backend. Guests
(`Hospede`) are registered with a name, an eleven-digit document (a CPF)
and a phone number. A stay (`Checkin`) belongs to one guest, has an entry
instant, an optional exit instant and a vehicle flag, and is priced when it
is closed. The pricing rules are:

- a weekday night costs 120.00 and a weekend night (Saturday or Sunday)
  costs 150.00;
- with a vehicle, parking adds 15.00 on a weekday night and 20.00 on a
  weekend night;
- a stay whose entry and exit fall on the same date is billed one night;
- leaving after 16:30 adds one more night.

The model covers these parts of the backend:

- the entity's own price computation (`Checkin.calcularValorTotal`) and the
  standalone calculator (`CalculadoraValorPadraoImpl`);
- the stay service (`CheckinService`): check-in, checkout, update, removal
  and the listings;
- the guest service (`HospedeService`): registration, update, removal,
  search and the "who left" and "who is in the hotel" listings, each guest
  with the total they have spent, the value of their last stay and whether
  they are in the hotel;
- the repository queries of both tables;
- the business-rule validators (`ValidadorRegrasNegocio`);
- the two mappers and the guest's list maintenance (`adicionarCheckin` and
  `removerCheckin`);
- the bean-validation rules of the guest request (`HospedeRequestDTO`).

Money is in integer cents. An instant is an epoch day plus a time of day.
The database is a `Store`: two maps from id to row, plus the next id of
each table's identity column. Each service call is a pure function from a
store to `Result<(Store, response)>`. Every failure is an `Err` and leaves
the rows untouched, as the transactional rollback does; the identity
counters are not advanced by a failed call (see "## Left out"). The column
constraints the database enforces at save time (not-null, length,
`numeric(10,2)` precision) are explicit errors. `Store.Valid` is the
store's invariant, and every service operation is proved to preserve it:

- ids are assigned and below the next id;
- every stay refers to a stored guest and has an entry;
- a stay is priced exactly when it is closed;
- every value fits its column;
- documents are unique;
- each guest has at most one open stay.

The modules follow the source's layers:

- `Outcomes`: Option, Result and the error taxonomy.
- `Calendar`: civil dates, epoch days, days of the week and the instant order.
- `Strings`: digit stripping, lower-casing and SQL `LIKE`.
- `Collections`: key-ordered rows, filters, stable insertion sort and distinctness.
- `Rates`: the tariff and the nights-billed rule.
- `StayEntity` and `GuestEntity`: the entities.
- `Calculator`: the standalone calculator.
- `Dto`: the requests and responses.
- `StayQueries` and `GuestQueries`: the repositories.
- `Validation`: the business-rule validators.
- `RequestRules`: the guest request's bean-validation rules.
- `GuestMapper` and `StayMapper`: the mappers.
- `Store`: the tables and their invariant.
- `GuestService` and `StayService`: the services.
- `Examples`: the priced stays of the entity tests.

## Model

| member | source | states |
|---|---|---|
| Rates.NightsBilledRules | src/main/java/com/hotel/backend/entity/Checkin.java:138-152 | entry and exit on the same date bill 1 night, or 2 after the cutoff; otherwise the nights are the difference in dates plus one after the cutoff; an exit date before the entry date bills no positive number of nights |
| Rates.CutoffIsExclusive | src/main/java/com/hotel/backend/entity/Checkin.java:128-133 | leaving exactly at 16:30 adds no night, and any later time on the same date adds exactly one |
| Rates.NightCharge | src/main/java/com/hotel/backend/entity/Checkin.java:96-111 | a weekend night is charged 15000 cents plus 2000 with a vehicle; a weekday night 12000 plus 1500 |
| Rates.StayCharge | src/main/java/com/hotel/backend/entity/Checkin.java:96-114 | n nights cost nothing when n is not positive, otherwise between 12000·n and 17000·n cents, and at most 15000·n without a vehicle |
| Rates.WeekendNightsPerWeek | src/main/java/com/hotel/backend/entity/Checkin.java:120-123 | seven more consecutive nights, starting anywhere, hold exactly two more Saturday or Sunday nights |
| Rates.WeekendNightsOfWholeWeeks | src/main/java/com/hotel/backend/entity/Checkin.java:120-123 | a stay of whole weeks is billed two weekend nights per week |
| Rates.StayChargeSplits | src/main/java/com/hotel/backend/entity/Checkin.java:92-114 | the charge of a stay is the room charges plus the parking charges, the two sums the entity adds up |
| Rates.StayChargeClosedForm | src/main/java/com/hotel/backend/entity/Checkin.java:96-111 | the charge equals the weekend rate times the weekend nights plus the weekday rate times the other nights, plus the matching parking with a vehicle |
| Rates.WeekHasTwoWeekendNights | src/main/java/com/hotel/backend/entity/Checkin.java:120-123 | any seven consecutive nights contain exactly two weekend nights |
| Calendar.DayOfWeekAdvances | src/main/java/com/hotel/backend/entity/Checkin.java:98 | the next day's day of the week is the successor of the current one |
| Calendar.EpochDayOfNextDate | src/main/java/com/hotel/backend/entity/Checkin.java:98 | moving to the next civil date adds exactly one to the epoch day, across month and year ends and leap days |
| StayEntity.NewStay | src/main/java/com/hotel/backend/entity/Checkin.java:69-73 | a new stay has the given guest and entry, no id, no exit and no total, is active, and a null vehicle flag becomes false |
| StayEntity.ActiveExactlyWithoutExit | src/main/java/com/hotel/backend/entity/Checkin.java:165-167 | a stay is active if and only if it has no exit, so setting an exit deactivates it |
| StayEntity.TotalAsOf | src/main/java/com/hotel/backend/entity/Checkin.java:79-115 | without an entry the value is 0 and the stay is unchanged; otherwise the value is stored as the total, and it is 0 when billing ends on a date before the entry date and at least one weekday night otherwise |
| StayEntity.ClosedTotalIgnoresNow | src/main/java/com/hotel/backend/entity/Checkin.java:84 | once a stay has an exit its price no longer depends on the current clock |
| StayEntity.CalculateTotal | src/main/java/com/hotel/backend/entity/Checkin.java:79-115 | the day-by-day loop returns the stay's value and the stay with it stored |
| StayEntity.Checkout | src/main/java/com/hotel/backend/entity/Checkin.java:157-160 | checkout sets the exit, leaves the other fields, deactivates the stay and stores the price as of that exit when there is an entry |
| Calculator.Value | src/main/java/com/hotel/backend/util/CalculadoraValorPadraoImpl.java:27-41 | no entry gives 0; an exit on a date before the entry date gives 0; otherwise at least one weekday night |
| Calculator.IsApplicable | src/main/java/com/hotel/backend/util/CalculadoraValorPadraoImpl.java:44-47 | the standard calculator accepts every stay |
| Calculator.CalculateValue | src/main/java/com/hotel/backend/util/CalculadoraValorPadraoImpl.java:27-41 | the calculator's method returns the value of the stay |
| Calculator.CalculateByNights | src/main/java/com/hotel/backend/util/CalculadoraValorPadraoImpl.java:52-63 | the loop over the nights returns the stay charge |
| Calculator.DailyValue | src/main/java/com/hotel/backend/util/CalculadoraValorPadraoImpl.java:68-85 | one night's value is its rate plus its parking surcharge |
| Calculator.AgreesWithStayEntity | src/main/java/com/hotel/backend/util/CalculadoraValorPadraoImpl.java:27-41 | the standalone calculator and the entity's own computation give the same value for every stay and every clock |
| Examples.TwoWeekdayNights | src/test/java/com/hotel/backend/entity/CheckinTest.java:34-51 | Monday 14:00 to Wednesday 10:00 without a vehicle costs 240.00 in both computations |
| Examples.TwoWeekdayNightsWithVehicle | src/test/java/com/hotel/backend/entity/CheckinTest.java:56-75 | the same stay with a vehicle costs 270.00 |
| Examples.TwoWeekendNights | src/test/java/com/hotel/backend/entity/CheckinTest.java:80-97 | Saturday 14:00 to Monday 10:00 costs 300.00 |
| Examples.LateExitAddsANight | src/main/java/com/hotel/backend/entity/Checkin.java:146-149 | the weekday stay left at 16:31 costs three nights, 360.00 |
| GuestEntity.NewGuest | src/main/java/com/hotel/backend/entity/Hospede.java:59-64 | a new guest has the given name, document and phone, no id and no stays |
| GuestEntity.AddStay | src/main/java/com/hotel/backend/entity/Hospede.java:70-73 | adding a stay appends it to the guest's list and points it at the guest, leaving the stay's other fields |
| GuestEntity.FirstSameStay | src/main/java/com/hotel/backend/entity/Hospede.java:79-82 | the position list removal uses is the first stay equal by id, and there is none exactly when no stay is equal |
| GuestEntity.RemoveStay | src/main/java/com/hotel/backend/entity/Hospede.java:79-82 | removing a stay deletes its first equal occurrence, keeps the list when there is none, and clears the stay's guest link |
| GuestEntity.RemoveUndoesAdd | src/main/java/com/hotel/backend/entity/Hospede.java:70-82 | removing a stay that was just added restores the guest exactly and leaves the stay unlinked |
| Strings.StripNonDigits | src/main/java/com/hotel/backend/util/ValidadorRegrasNegocio.java:93 | stripping keeps exactly the digits of the text, in order |
| Strings.StripNonDigitsFixesExactlyDigitStrings | src/main/java/com/hotel/backend/util/ValidadorRegrasNegocio.java:116 | stripping is idempotent and leaves a text unchanged exactly when it is all digits |
| Strings.StripConcat | src/main/java/com/hotel/backend/util/ValidadorRegrasNegocio.java:93 | stripping distributes over concatenation |
| Strings.ToLower | src/main/java/com/hotel/backend/repository/HospedeRepository.java:38 | lower-casing keeps the length and maps each character on its own, removing every upper-case letter |
| Strings.LikeSubstring | src/main/java/com/hotel/backend/repository/HospedeRepository.java:38 | a pattern with a wildcard-free text between two `%` matches exactly the strings containing that text |
| Strings.LikeLiteralThenAny | src/main/java/com/hotel/backend/repository/HospedeRepository.java:38 | a wildcard-free text followed by `%` matches exactly the strings it prefixes |
| Collections.SortBy | src/main/java/com/hotel/backend/repository/CheckinRepository.java:25 | ordering by a key yields a sorted permutation of the rows |
| Collections.FilterPartitions | src/main/java/com/hotel/backend/repository/CheckinRepository.java:31-43 | two complementary filters split the rows into two parts whose union is the whole |
| StayQueries.OfGuest | src/main/java/com/hotel/backend/repository/CheckinRepository.java:25 | exactly the stays of the guest, each at most as often as stored |
| StayQueries.StaysOfGuestNewestFirst | src/main/java/com/hotel/backend/repository/CheckinRepository.java:25 | a permutation of the guest's stays ordered by entry, newest first |
| StayQueries.ActiveStays | src/main/java/com/hotel/backend/repository/CheckinRepository.java:31-34 | a permutation of the open stays ordered by entry, oldest first |
| StayQueries.FinishedStays | src/main/java/com/hotel/backend/repository/CheckinRepository.java:40-43 | a permutation of the closed stays ordered by exit, latest first |
| StayQueries.ActiveAndFinishedPartition | src/main/java/com/hotel/backend/repository/CheckinRepository.java:31-43 | the active and the finished listings together hold every stay exactly as often as stored |
| StayQueries.OpenStaysOf | src/main/java/com/hotel/backend/repository/CheckinRepository.java:49-51 | exactly the open stays of the guest |
| StayQueries.CountOpen | src/main/java/com/hotel/backend/repository/CheckinRepository.java:57-59 | the count is positive if and only if the guest has an open stay |
| StayQueries.OpenStayOf | src/main/java/com/hotel/backend/repository/CheckinRepository.java:49-51 | no open stay gives an empty result, exactly one gives that stay, and more than one is a non-unique-result error |
| StayQueries.OpenStayUnique | src/main/java/com/hotel/backend/repository/CheckinRepository.java:49-51 | when all open stays of a guest are the same row, the single-result query cannot fail |
| StayQueries.TotalSpent | src/main/java/com/hotel/backend/repository/CheckinRepository.java:65-67 | the sum of the guest's stored totals, 0 when they have none, and at least each of them |
| StayQueries.TotalSpentOne | src/main/java/com/hotel/backend/repository/CheckinRepository.java:65-67 | one row contributes its total exactly when it is the guest's and has one, so with the append lemma the sum is pinned down |
| StayQueries.TotalSpentAppend | src/main/java/com/hotel/backend/repository/CheckinRepository.java:65-67 | the sum over two row lists is the sum of their sums |
| StayQueries.TotalSpentOfOwnStays | src/main/java/com/hotel/backend/repository/CheckinRepository.java:65-67 | summing over the guest's own stays gives the same total as summing over all stays |
| StayQueries.LatestPriced | src/main/java/com/hotel/backend/repository/CheckinRepository.java:73-77 | the first priced stay of the guest in exit-descending order, or none when no stay is priced |
| StayQueries.LastStayValue | src/main/java/com/hotel/backend/repository/CheckinRepository.java:73-77 | the total of a priced stay of the guest that sorts no later than any other, or none when no stay is priced |
| StayQueries.Linked | src/main/java/com/hotel/backend/repository/CheckinRepository.java:83-86 | the inner join keeps exactly the stays linked to a guest |
| StayQueries.AllNewestFirst | src/main/java/com/hotel/backend/repository/CheckinRepository.java:83-86 | a permutation of the linked stays ordered by entry, newest first |
| GuestQueries.FindByDocument | src/main/java/com/hotel/backend/repository/HospedeRepository.java:24 | a guest with the document, or none exactly when no guest has it |
| GuestQueries.ExistsIffFound | src/main/java/com/hotel/backend/repository/HospedeRepository.java:24-30 | the existence query holds exactly when the lookup finds a guest |
| GuestQueries.Search | src/main/java/com/hotel/backend/repository/HospedeRepository.java:37-45 | exactly the guests passing every given filter |
| GuestQueries.SearchWithoutFilters | src/main/java/com/hotel/backend/repository/HospedeRepository.java:37-45 | with no filter given, the search returns every guest; the table order is the model's choice for a query without `ORDER BY` |
| GuestQueries.NameFilterIsSubstring | src/main/java/com/hotel/backend/repository/HospedeRepository.java:38 | a wildcard-free name filter matches exactly the names containing it, ignoring ASCII case |
| GuestQueries.Left | src/main/java/com/hotel/backend/repository/HospedeRepository.java:51-54 | exactly the guests with at least one closed stay |
| GuestQueries.Present | src/main/java/com/hotel/backend/repository/HospedeRepository.java:60-63 | exactly the guests with at least one open stay |
| GuestQueries.WhoLeft | src/main/java/com/hotel/backend/repository/HospedeRepository.java:51-55 | the distinct guests with a closed stay, ordered by name |
| GuestQueries.InHotel | src/main/java/com/hotel/backend/repository/HospedeRepository.java:60-64 | the distinct guests with an open stay, ordered by name |
| GuestQueries.ReturningGuestInBothLists | src/main/java/com/hotel/backend/repository/HospedeRepository.java:51-64 | a guest back in the hotel after an earlier stay appears in both listings |
| GuestQueries.AllByName | src/main/java/com/hotel/backend/repository/HospedeRepository.java:70-73 | a permutation of all guests ordered by name, each listed once |
| Validation.CheckinAllowed | src/main/java/com/hotel/backend/util/ValidadorRegrasNegocio.java:29-36 | fails, naming the guest, exactly when the guest has an open stay |
| Validation.CheckinUpdatable | src/main/java/com/hotel/backend/util/ValidadorRegrasNegocio.java:42-49 | passes exactly for an active stay, otherwise an illegal-state error |
| Validation.CheckoutAllowed | src/main/java/com/hotel/backend/util/ValidadorRegrasNegocio.java:55-62 | passes exactly for an active stay, otherwise an already-finished error |
| Validation.DatesConsistent | src/main/java/com/hotel/backend/util/ValidadorRegrasNegocio.java:67-81 | passes exactly when there is an entry, the exit is not before it and the entry is at most one day ahead of now; each failure carries its own reason |
| Validation.ConsistentDatesBillAtLeastOneNight | src/main/java/com/hotel/backend/util/ValidadorRegrasNegocio.java:67-81 | dates the validator accepts are always priced at least one weekday night |
| Validation.ExitAtEntryIsConsistent | src/main/java/com/hotel/backend/util/ValidadorRegrasNegocio.java:67-75 | an exit equal to the entry is accepted |
| Validation.DocumentFormat | src/main/java/com/hotel/backend/util/ValidadorRegrasNegocio.java:87-105 | passes exactly for a non-blank document with eleven digits that are not all the same; blank, wrong-length and one-repeated-digit documents each get their own error, exactly in their case |
| Validation.PhoneFormat | src/main/java/com/hotel/backend/util/ValidadorRegrasNegocio.java:110-122 | passes exactly for a non-blank phone with ten or eleven digits; blank phones get their own error |
| Validation.SeparatorsIgnored | src/main/java/com/hotel/backend/util/ValidadorRegrasNegocio.java:87-122 | inserting a visible separator character anywhere does not change either verdict |
| RequestRules.ValidRequestFitsColumns | src/main/java/com/hotel/backend/dto/HospedeRequestDTO.java:26-39 | a request that passes bean validation fits the guest table's column lengths |
| RequestRules.ValidRequestPassesValidators | src/main/java/com/hotel/backend/dto/HospedeRequestDTO.java:31-39 | a valid request's phone passes the business validator, and its document passes exactly when its digits are not all equal |
| RequestRules.PunctuatedDocumentOnlyPassesValidator | src/main/java/com/hotel/backend/dto/HospedeRequestDTO.java:31-34 | a punctuated document is accepted by the business validator but rejected by the request's pattern |
| RequestRules.NameSizeCountsCodeUnits | src/main/java/com/hotel/backend/dto/HospedeRequestDTO.java:27 | the name size counts UTF-16 code units: one supplementary character is long enough, 128 are too long though they fit the column |
| Strings.Utf16Length | src/main/java/com/hotel/backend/dto/HospedeRequestDTO.java:27 | a string's Java length is between its character count and twice it, equal to the count exactly when no character is supplementary |
| Strings.Utf16LengthConcat | src/main/java/com/hotel/backend/dto/HospedeRequestDTO.java:27 | Java lengths add up over concatenation |
| RequestRules.ShortFieldsRejected | src/test/java/com/hotel/backend/controller/HospedeControllerTest.java:88-100 | an empty name, a three-digit document and a three-digit phone are each rejected |
| GuestMapper.ToEntity | src/main/java/com/hotel/backend/util/HospedeMapper.java:22-32 | null maps to null; otherwise a guest without id carrying the request's three fields |
| GuestMapper.ToResponse | src/main/java/com/hotel/backend/util/HospedeMapper.java:38-57 | copies the guest's fields; a missing aggregate becomes 0, 0 or false |
| GuestMapper.ToSimpleResponse | src/main/java/com/hotel/backend/util/HospedeMapper.java:63-65 | copies the guest's fields with zero aggregates and not in the hotel |
| GuestMapper.UpdateFromRequest | src/main/java/com/hotel/backend/util/HospedeMapper.java:71-79 | with both present, overwrites the three fields and keeps the id; otherwise the entity is unchanged |
| GuestMapper.UpdateIdempotentAndAgreesWithToEntity | src/main/java/com/hotel/backend/util/HospedeMapper.java:71-79 | updating twice equals updating once, and updating a guest without id equals converting the request |
| GuestMapper.SimpleResponseDeterminesGuest | src/main/java/com/hotel/backend/util/HospedeMapper.java:63-65 | the simple response keeps enough to rebuild the guest |
| StayMapper.ToEntity | src/main/java/com/hotel/backend/util/CheckinMapper.java:25-36 | null maps to null; otherwise an unpriced stay without id with the request's dates and a null vehicle flag as false |
| StayMapper.ToResponse | src/main/java/com/hotel/backend/util/CheckinMapper.java:42-60 | given the stay's own guest, copies the stay's fields, reports it active exactly when it has no exit, and embeds that guest's simple response |
| StayMapper.UpdateFromRequest | src/main/java/com/hotel/backend/util/CheckinMapper.java:66-78 | overwrites entry and vehicle; with an exit, checks the stay out and prices it when there is an entry, keeping the old total otherwise; without an exit, keeps exit and total |
| StayMapper.UpdatePricesWhatToEntityLeavesUnpriced | src/main/java/com/hotel/backend/util/CheckinMapper.java:25-78 | converting leaves a stay unpriced, and updating with the same request prices it exactly when both dates are given |
| Store.EmptyIsValid | src/main/java/com/hotel/backend/entity/Checkin.java:41-56 | the empty database satisfies every table constraint |
| Store.GuestColumnsCheck | src/main/java/com/hotel/backend/entity/Hospede.java:34-40 | passes exactly when every text fits its column length, otherwise names an overlong column |
| Store.StayColumnsCheck | src/main/java/com/hotel/backend/entity/Checkin.java:45-56 | passes exactly when the entry is set and the total fits `numeric(10,2)`; each failure names its column |
| Store.InsertGuest | src/main/java/com/hotel/backend/entity/Hospede.java:30-40 | saving a new guest fails on an overlong column, otherwise stores it under the next identity value and touches nothing else |
| Store.InsertStay | src/main/java/com/hotel/backend/entity/Checkin.java:41-56 | saving a new stay fails on a violated column, otherwise stores it under the next identity value and touches nothing else |
| Store.UpdateGuestRow | src/main/java/com/hotel/backend/entity/Hospede.java:34-40 | saving an existing guest fails on an overlong column, otherwise replaces exactly that row |
| Store.UpdateStayRow | src/main/java/com/hotel/backend/entity/Checkin.java:45-56 | saving an existing stay fails on a violated column, otherwise replaces exactly that row |
| Store.DeleteGuest | src/main/java/com/hotel/backend/entity/Hospede.java:44-45 | deleting a guest cascades to exactly their stays and keeps every other row |
| Store.DeleteStay | src/main/java/com/hotel/backend/service/CheckinService.java:179-186 | deleting a stay removes exactly that row |
| Store.RowsOfValid | src/main/java/com/hotel/backend/repository/CheckinRepository.java:83-86 | in a valid database each table lists every stored row exactly once |
| Store.HasOpenStayInStore | src/main/java/com/hotel/backend/repository/CheckinRepository.java:57-59 | the existence query over the table holds exactly when some stored stay of the guest is open |
| Store.OpenStayQueryNeverFails | src/main/java/com/hotel/backend/repository/CheckinRepository.java:49-51 | in a valid database the single-open-stay query never raises a non-unique-result error |
| Store.NoStaysOfUnknownGuest | src/main/java/com/hotel/backend/repository/CheckinRepository.java:25 | a guest that is not stored owns no stay |
| GuestService.Summary | src/main/java/com/hotel/backend/service/HospedeService.java:175-192 | the response copies the guest's fields and always carries all three aggregates |
| GuestService.SummaryOfStoredGuest | src/main/java/com/hotel/backend/service/HospedeService.java:175-192 | a stored guest is reported in the hotel exactly when they have an open stay, their total spent bounds each stay's total, and with only open stays both values are 0 |
| GuestService.DocumentTaken | src/main/java/com/hotel/backend/service/HospedeService.java:165-169 | the uniqueness check over the table holds exactly when a stored guest has the document |
| GuestService.CreateGuestRow | src/main/java/com/hotel/backend/service/HospedeService.java:36-51 | registration succeeds exactly when the document is free and the fields fit; a taken document is a duplicate error; success stores the guest under the next id |
| GuestService.CreateGuest | src/main/java/com/hotel/backend/service/HospedeService.java:36-51 | registration responds with the new id and the request's fields |
| GuestService.CreateGuestRefusesTakenDocument | src/main/java/com/hotel/backend/service/HospedeService.java:36-51 | registration fails with the duplicate error exactly when a stored guest already has the document |
| GuestService.CreateGuestEffects | src/main/java/com/hotel/backend/service/HospedeService.java:36-51 | a successful registration keeps the database valid, adds one guest under a fresh id and changes no other guest and no stay |
| GuestService.CreateGuestReportsNothing | src/main/java/com/hotel/backend/service/HospedeService.java:48-50 | the newly registered guest is reported with nothing spent, no last stay value and not in the hotel |
| GuestService.SummaryWithoutStays | src/main/java/com/hotel/backend/service/HospedeService.java:175-192 | a guest owning no stay row reports zero spent, zero last value and not in the hotel |
| GuestService.FindGuest | src/main/java/com/hotel/backend/service/HospedeService.java:57-62 | an unknown id is a not-found error; otherwise the guest's summary |
| GuestService.UpdateGuest | src/main/java/com/hotel/backend/service/HospedeService.java:80-98 | an unknown id is not found; a changed document already taken is a duplicate error; with the same document it succeeds exactly when the fields fit; success overwrites the three fields of that guest only |
| GuestService.UpdateGuestEffects | src/main/java/com/hotel/backend/service/HospedeService.java:86-88 | changing the document fails as a duplicate exactly when another guest has it |
| GuestService.UpdateGuestPreservesValid | src/main/java/com/hotel/backend/service/HospedeService.java:80-98 | a successful update keeps the database valid, documents included |
| GuestService.RemoveGuest | src/main/java/com/hotel/backend/service/HospedeService.java:104-111 | an unknown id is not found; otherwise the guest and exactly their stays are deleted |
| GuestService.RemoveGuestPreservesValid | src/main/java/com/hotel/backend/service/HospedeService.java:104-111 | removing a guest keeps the database valid and leaves the other stays as they were |
| GuestService.Summaries | src/main/java/com/hotel/backend/service/HospedeService.java:72-74 | one summary per guest, in order, and distinct guests give distinct summaries |
| GuestService.ListGuests | src/main/java/com/hotel/backend/service/HospedeService.java:68-75 | the summaries of exactly the stored guests, one per row, ordered by name |
| GuestService.ListGuestsHoldsEveryGuestOnce | src/main/java/com/hotel/backend/service/HospedeService.java:68-75 | in a valid database every stored guest is listed, and listed once |
| GuestService.SearchGuests | src/main/java/com/hotel/backend/service/HospedeService.java:118-130 | the summaries of exactly the guests passing the filters |
| GuestService.SearchWithoutFiltersListsAll | src/main/java/com/hotel/backend/service/HospedeService.java:118-130 | a search with no filter lists the summary of every guest, in the model's chosen table order |
| GuestService.GuestsWhoLeft | src/main/java/com/hotel/backend/service/HospedeService.java:136-143 | the summaries of exactly the guests with a closed stay, each once, ordered by name |
| GuestService.GuestsInHotel | src/main/java/com/hotel/backend/service/HospedeService.java:149-156 | the summaries of exactly the guests with an open stay, each once, ordered by name, each reported in the hotel |
| StayService.GuestFields | src/main/java/com/hotel/backend/service/CheckinService.java:235-242 | the embedded guest copies the guest's fields and carries no aggregates |
| StayService.GuestOf | src/main/java/com/hotel/backend/service/CheckinService.java:220 | the guest row a stay points at, when it is stored |
| StayService.Respond | src/main/java/com/hotel/backend/service/CheckinService.java:219-233 | the response copies the stay's fields, reports it active exactly when it has no exit, and embeds its guest |
| StayService.ObtainGuest | src/main/java/com/hotel/backend/service/CheckinService.java:195-208 | reuses the guest with the document, leaving the database as it is, or registers a new one |
| StayService.ObtainGuestEffects | src/main/java/com/hotel/backend/service/CheckinService.java:195-208 | the database stays valid with the stays untouched and the guest stored; a stored document returns that exact guest |
| StayService.NewStayFor | src/main/java/com/hotel/backend/service/CheckinService.java:46-56 | the new stay carries the request's dates and the guest's id, is unpriced and open without an exit, and is priced by the calculator with one |
| StayService.CheckIn | src/main/java/com/hotel/backend/service/CheckinService.java:40-62 | a successful check-in stores a stay under the next id with the request's dates and vehicle, for a guest with the request's document |
| StayService.CheckInRefusedWhileInHotel | src/main/java/com/hotel/backend/service/CheckinService.java:210-214 | a guest with an open stay is refused, naming the guest |
| StayService.CheckInAdmittedWhenNotInHotel | src/main/java/com/hotel/backend/service/CheckinService.java:210-214 | conversely, a registered guest without an open stay is never refused as already in the hotel |
| StayService.CheckInPreservesValid | src/main/java/com/hotel/backend/service/CheckinService.java:40-62 | a successful check-in keeps the database valid, leaves every closed stay as it was and adds exactly one stay |
| StayService.CheckInCreatesStay | src/main/java/com/hotel/backend/service/CheckinService.java:46-56 | the stored stay belongs to the guest with the request's document, has the request's dates and vehicle, and is priced when an exit is given |
| StayService.CheckInReusesGuest | src/main/java/com/hotel/backend/service/CheckinService.java:195-201 | checking in a registered guest does not change the guest table |
| StayService.CheckOut | src/main/java/com/hotel/backend/service/CheckinService.java:67-82 | an unknown id is not found, a closed stay is already finished, and success checks out exactly that stay |
| StayService.CheckOutOverflowsWhereCounterWraps | src/main/java/com/hotel/backend/entity/Checkin.java:90-97 | a checkout billing more nights than a 32-bit counter reaches is refused with a numeric overflow of the total column |
| StayService.CheckOutSucceedsUnlessOverflow | src/main/java/com/hotel/backend/service/CheckinService.java:67-82 | checkout of an open stay succeeds exactly when its price fits the total column, and otherwise fails with a numeric overflow of that column |
| StayService.CheckOutPreservesValid | src/main/java/com/hotel/backend/service/CheckinService.java:67-82 | a successful checkout keeps the database valid and changes no stay that was already closed |
| StayService.CheckOutEffects | src/main/java/com/hotel/backend/service/CheckinService.java:67-82 | a successful checkout sets the exit and the calculator's price on that stay only, keeps every other row, and leaves the guest with no open stay |
| StayService.ClosedGuestHasNoOpenStay | src/main/java/com/hotel/backend/service/CheckinService.java:210-214 | closing a guest's open stay leaves them with no open stay, so the check-in uniqueness rule no longer applies |
| StayService.CheckInAfterCheckOut | src/main/java/com/hotel/backend/service/CheckinService.java:40-82 | after a checkout the same guest is never refused as already in the hotel |
| StayService.CheckOutBeforeEntryPricesZero | src/main/java/com/hotel/backend/service/CheckinService.java:76 | the service does not check the dates, so an exit dated before the entry is accepted and priced 0 |
| StayService.UpdateStay | src/main/java/com/hotel/backend/service/CheckinService.java:153-174 | unknown and closed stays are refused; success overwrites entry and vehicle of that stay only, prices it with the calculator when an exit is given, and keeps its total otherwise |
| StayService.UpdateStayPreservesValid | src/main/java/com/hotel/backend/service/CheckinService.java:153-174 | a successful update keeps the database valid and leaves every closed stay as it was |
| StayService.RemoveStay | src/main/java/com/hotel/backend/service/CheckinService.java:179-186 | an unknown id is not found; otherwise exactly that stay is deleted |
| StayService.RemoveStayPreservesValid | src/main/java/com/hotel/backend/service/CheckinService.java:179-186 | removing a stay keeps the database valid and the other closed stays |
| StayService.FindStay | src/main/java/com/hotel/backend/service/CheckinService.java:88-93 | an unknown id is not found; otherwise a response with that stay's id, entry, exit, vehicle flag and total, active exactly when open, embedding its stored guest's fields |
| StayService.StaysOfGuest | src/main/java/com/hotel/backend/service/CheckinService.java:138-148 | an unknown guest is not found; otherwise the guest's stays newest first, each embedding the guest |
| StayService.StaysOfGuestListsEveryStay | src/main/java/com/hotel/backend/service/CheckinService.java:138-148 | every stored stay of the guest is listed, once, and nothing else |
| StayService.ListAll | src/main/java/com/hotel/backend/service/CheckinService.java:99-106 | all stays newest first; in a valid database every stored stay is listed, by its id, and nothing else |
| StayService.AllRowsLinked | src/main/java/com/hotel/backend/repository/CheckinRepository.java:83-86 | in a valid database the join with the guest drops no stay |
| StayService.ListActive | src/main/java/com/hotel/backend/service/CheckinService.java:112-119 | exactly the stored open stays, by id, oldest entry first |
| StayService.ListFinished | src/main/java/com/hotel/backend/service/CheckinService.java:125-132 | exactly the stored closed stays, by id, latest exit first |
| StayService.ActiveAndFinishedCoverAll | src/main/java/com/hotel/backend/service/CheckinService.java:112-132 | the two listings together have as many entries as there are stays |

## Left out

- Controllers, the global exception handler, the OpenAPI configuration and
  HTTP status codes: they only translate requests and errors, and errors
  stay typed values here.
- Creation and update timestamps, logging, concurrency and transaction
  isolation: each call is one atomic function from store to store.
- Null request strings: request texts are plain strings. A null vehicle
  flag is modelled, because it passes request validation and reaches the
  services. A null entry cannot arrive through the controllers (the stay
  request's entry is `@NotNull` and validated); it is modelled only for a
  direct call of the service, where it ends as
  `NotNullViolation("data_entrada")` when the row is saved.
- The backslash escape of SQL `LIKE`: `%` and `_` in the user's text act as
  wildcards, and `\` is an ordinary character.
- `LOWER` beyond ASCII and the database collation: lower-casing maps only
  `A`-`Z`, and name ordering is an abstract `collation` key.
- The difference between a `NullPointerException` and a not-null column
  violation: a null vehicle flag in a service request is one
  `NotNullViolation("adicional_veiculo")` error, raised before the entry
  check.
- Which column is reported when several are violated at once: the model
  checks name, document and phone in that order, and entry before total.
- The nested guest request of a check-in is not bean-validated (no cascade),
  so only the column lengths guard it; the model reflects that.
- The branch of the check-in's guest lookup (`StayService.ObtainGuest`)
  that re-reads a just-created guest and fails when it is missing: it
  cannot be reached inside one transaction.
- A null checkout exit: the not-null rule lives on the controller, so the
  service's exit is a plain `DateTime`.
- The scale of `BigDecimal`: cents are exact, so `240.00` and `240` are the
  same number.
- `ValidadorRegrasNegocio` is modelled on its own: the services never call
  it, so their models do not call it either (see
  `StayService.CheckOutBeforeEntryPricesZero`).
- A stay whose guest row is missing: the services would fail on a null
  reference; `Store.Valid` excludes it, and `StayService.Respond` then embeds
  no guest.
- The `CalculadoraValorStrategy` interface: there is one implementation,
  modelled as `Calculator`.
- The listing of all guests uses a fetch join without `DISTINCT`; Hibernate
  6 returns each root entity once, and that is what `GuestService.ListGuests`
  lists.
- `Calculator.CalculateValue`: the clock is a parameter `now` instead of
  `LocalDateTime.now()`, and likewise for `StayEntity.TotalAsOf`.
- StayEntity.CalculateTotal, Calculator.CalculateByNights: the night
  counter is a 32-bit `int` compared with a `long` night count, so above
  2147483647 nights it wraps before reaching the count and pricing never
  finishes; the model's counter is unbounded and returns the price. At a
  checkout that price is far beyond `numeric(10,2)`, so the model answers
  `NumericOverflow` where the program hangs
  (`StayService.CheckOutOverflowsWhereCounterWraps`).
- GuestEntity.RemoveStay: the list and its stays are values, so the case
  where the removed element and the argument are different objects (two
  unsaved stays with null ids are equal by id) is not modelled; the model
  clears the link of the stay it was given.
- Identity values: ids are abstract. Both counters start at 0 where
  PostgreSQL identity columns start at 1, and a call that fails does not
  use up the ids its rolled-back inserts took (a failed check-in that had
  saved a new guest leaves the guest counter where it was), so the model's
  ids can differ from the program's; only their freshness and uniqueness
  are modelled.

=== FILE: calculator.dfy ===
/** The standard value calculator: the pricing of a stay as a side-effect
    free computation over an entry, an optional exit and the vehicle flag,
    summing one value per billed night. */
module Calculator {
  import opened Outcomes
  import opened Calendar
  import opened Rates
  import StayEntity

  /** The value of a stay from `entry` to `exit` (or to `now` while there is
      no exit); 0 without an entry. */
  function Value(entry: Option<DateTime>, exit: Option<DateTime>, vehicle: bool, now: DateTime): (r: Cents)
    ensures entry.None? ==> r == 0
    ensures entry.Some? && exit.Some? && exit.value.date < entry.value.date ==> r == 0
    ensures entry.Some? && exit.Some? && entry.value.date <= exit.value.date ==> r >= WeekdayRate
  {
    if entry.None? then 0
    else
      var end := if exit.Some? then exit.value else now;
      StayCharge(entry.value.date, NightsBilled(entry.value, end), vehicle)
  }

  /** This calculator applies to every stay. */
  function IsApplicable(entry: Option<DateTime>, exit: Option<DateTime>): (r: bool)
    ensures r
  {
    true
  }

  /** The value computed as the calculator does: billed nights first, then
      one day value per night from the entry date. */
  method CalculateValue(entry: Option<DateTime>, exit: Option<DateTime>, vehicle: bool, now: DateTime)
    returns (r: Cents)
    ensures r == Value(entry, exit, vehicle, now)
  {
    if entry.None? {
      return 0;
    }
    var end := if exit.Some? then exit.value else now;
    var extra := ChargesExtraNight(end);
    var n := NumberOfNights(entry.value, end, extra);
    r := CalculateByNights(entry.value.date, n, vehicle);
  }

  /** The sum of the day values of `n` consecutive nights from `start`. */
  method CalculateByNights(start: int, n: int, vehicle: bool) returns (total: Cents)
    ensures total == StayCharge(start, n, vehicle)
  {
    total := 0;
    var i := 0;
    while i < n
      invariant 0 <= i && (n > 0 ==> i <= n) && (n <= 0 ==> i == 0)
      invariant total == StayCharge(start, i, vehicle)
    {
      var v := DailyValue(start + i, vehicle);
      total := total + v;
      i := i + 1;
    }
  }

  /** One night's value, decided by the kind of day it is billed on. */
  method DailyValue(epochDay: int, vehicle: bool) returns (v: Cents)
    ensures v == NightCharge(epochDay, vehicle)
  {
    var rate: Cents;
    var parking: Cents := 0;
    if IsWeekend(epochDay) {
      rate := WeekendRate;
      if vehicle {
        parking := WeekendParking;
      }
    } else {
      rate := WeekdayRate;
      if vehicle {
        parking := WeekdayParking;
      }
    }
    v := rate + parking;
  }

  /** The calculator and the stay entity price every stay identically, and
      the calculator leaves the stay as it was. */
  lemma {:induction false} AgreesWithStayEntity(c: StayEntity.Stay, now: DateTime)
    ensures Value(c.entry, c.exit, c.vehicle, now) == StayEntity.TotalAsOf(c, now).0
  {
    if c.entry.Some? {
      var end := StayEntity.BillingEnd(c, now);
      StayChargeSplits(c.entry.value.date, NightsBilled(c.entry.value, end), c.vehicle);
    }
  }
}

=== FILE: calendar.dfy ===
/** Local date-times as the backend's `java.time.LocalDateTime` sees them: a
    date counted in days from 1970-01-01 (the epoch day) and a time of day in
    nanoseconds. The civil calendar is the proleptic Gregorian calendar of
    ISO 8601:2004, section 3.2.1. */
module Calendar {

  const NanosPerSecond: nat := 1_000_000_000
  const NanosPerDay: nat := 86_400 * NanosPerSecond

  type TimeOfDay = n: nat | n < NanosPerDay

  /** A `LocalDateTime`: `date` is the epoch day, `time` the nanosecond of the day. */
  datatype DateTime = DateTime(date: int, time: TimeOfDay)

  /** `LocalTime.of(hour, minute)`. */
  function TimeOf(hour: nat, minute: nat): (t: TimeOfDay)
    requires hour < 24 && minute < 60
    ensures t % (60 * NanosPerSecond) == 0
  {
    (hour * 3600 + minute * 60) * NanosPerSecond
  }

  /** `a.isBefore(b)`: the date decides, then the time of day. */
  predicate IsBefore(a: DateTime, b: DateTime) {
    a.date < b.date || (a.date == b.date && a.time < b.time)
  }

  /** The position of a date-time on one nanosecond time line. */
  function Instant(t: DateTime): int {
    t.date * NanosPerDay + t.time
  }

  lemma InstantOrdersLikeIsBefore(a: DateTime, b: DateTime)
    ensures IsBefore(a, b) <==> Instant(a) < Instant(b)
    ensures a == b <==> Instant(a) == Instant(b)
  {
    if a.date < b.date {
      assert a.date * NanosPerDay + NanosPerDay <= b.date * NanosPerDay;
    } else if a.date > b.date {
      assert b.date * NanosPerDay + NanosPerDay <= a.date * NanosPerDay;
    }
  }

  /** `t.plusDays(n)`: the same time of day, `n` dates later. */
  function PlusDays(t: DateTime, n: int): (r: DateTime)
    ensures r.time == t.time && r.date - t.date == n
  {
    DateTime(t.date + n, t.time)
  }

  /** `ChronoUnit.DAYS.between(a, b)` on two `LocalDate`s: signed, exact. */
  function DaysBetween(a: int, b: int): (n: int)
    ensures a + n == b
  {
    b - a
  }

  datatype DayOfWeek = Monday | Tuesday | Wednesday | Thursday | Friday | Saturday | Sunday

  function DayOfWeekAt(index: nat): DayOfWeek
    requires index < 7
  {
    [Monday, Tuesday, Wednesday, Thursday, Friday, Saturday, Sunday][index]
  }

  /** `LocalDate.getDayOfWeek()`: epoch day 0 (1970-01-01) was a Thursday. */
  function DayOfWeekOf(epochDay: int): DayOfWeek {
    DayOfWeekAt((epochDay + 3) % 7)
  }

  /** The day after a given day of the week. */
  function Succ(d: DayOfWeek): DayOfWeek {
    match d
    case Monday => Tuesday
    case Tuesday => Wednesday
    case Wednesday => Thursday
    case Thursday => Friday
    case Friday => Saturday
    case Saturday => Sunday
    case Sunday => Monday
  }

  /** Consecutive epoch days fall on consecutive days of the week, so the
      week repeats every seven days. */
  lemma DayOfWeekAdvances(epochDay: int)
    ensures DayOfWeekOf(epochDay + 1) == Succ(DayOfWeekOf(epochDay))
    ensures DayOfWeekOf(epochDay + 7) == DayOfWeekOf(epochDay)
  {
    var k := (epochDay + 3) % 7;
    assert (epochDay + 4) % 7 == (k + 1) % 7;
    assert (epochDay + 10) % 7 == k;
  }

  // ---- civil dates ---------------------------------------------------------

  predicate IsLeapYear(y: int) {
    y % 4 == 0 && (y % 100 != 0 || y % 400 == 0)
  }

  function DaysInMonth(y: int, m: int): (n: int)
    requires 1 <= m <= 12
    ensures 28 <= n <= 31
  {
    if m == 2 then (if IsLeapYear(y) then 29 else 28)
    else if m == 4 || m == 6 || m == 9 || m == 11 then 30
    else 31
  }

  predicate ValidDate(y: int, m: int, d: int) {
    1 <= m <= 12 && 1 <= d <= DaysInMonth(y, m)
  }

  /** Days from 0000-03-01 to the first of March of the March-based year
      `yp` (which runs from March `yp` to February `yp + 1`). */
  function MarchYearStart(yp: int): int {
    var era := yp / 400;
    var yoe := yp - era * 400;
    era * 146097 + yoe * 365 + yoe / 4 - yoe / 100
  }

  /** `LocalDate.of(y, m, d).toEpochDay()`. */
  function EpochDay(y: int, m: int, d: int): int
    requires ValidDate(y, m, d)
  {
    var yp := if m <= 2 then y - 1 else y;
    var mp := if m > 2 then m - 3 else m + 9;
    MarchYearStart(yp) + (153 * mp + 2) / 5 + d - 1 - 719468
  }

  /** The civil date that follows a valid civil date. */
  function NextDate(y: int, m: int, d: int): (r: (int, int, int))
    requires ValidDate(y, m, d)
    ensures ValidDate(r.0, r.1, r.2)
  {
    if d < DaysInMonth(y, m) then (y, m, d + 1)
    else if m < 12 then (y, m + 1, 1)
    else (y + 1, 1, 1)
  }

  /** Euclidean division by one of the calendar's constants is determined
      by any quotient and remainder that fit. */
  lemma DivModUnique(x: int, k: int, q: int, r: int)
    requires k == 4 || k == 100 || k == 400
    requires 0 <= r < k && x == q * k + r
    ensures x / k == q && x % k == r
  {
    if k == 4 {
      assert x == q * 4 + r;
    } else if k == 100 {
      assert x == q * 100 + r;
    } else {
      assert x == q * 400 + r;
    }
  }

  /** Stepping a count by one crosses a multiple of `k` exactly when the
      new count is divisible by `k`. */
  lemma DivStep(x: int, k: int)
    requires k == 4 || k == 100
    ensures (x + 1) / k - x / k == if (x + 1) % k == 0 then 1 else 0
  {
    var q, r := x / k, x % k;
    if r == k - 1 {
      DivModUnique(x + 1, k, q + 1, 0);
    } else {
      DivModUnique(x + 1, k, q, r + 1);
    }
  }

  /** A March-based year is 366 days long exactly when the February that
      ends it has 29 days. */
  lemma MarchYearLength(yp: int)
    ensures MarchYearStart(yp + 1) - MarchYearStart(yp) == if IsLeapYear(yp + 1) then 366 else 365
  {
    var era := yp / 400;
    var yoe := yp - era * 400;
    assert 0 <= yoe < 400;
    if yoe == 399 {
      DivModUnique(yp + 1, 400, era + 1, 0);
      DivModUnique(yp + 1, 4, era * 100 + 100, 0);
      assert MarchYearStart(yp + 1) == (era + 1) * 146097;
      assert MarchYearStart(yp) == era * 146097 + 399 * 365 + 99 - 3;
    } else {
      DivModUnique(yp + 1, 400, era, yoe + 1);
      DivModUnique(yp + 1, 4, era * 100 + (yoe + 1) / 4, (yoe + 1) % 4);
      DivModUnique(yp + 1, 100, era * 4 + (yoe + 1) / 100, (yoe + 1) % 100);
      DivStep(yoe, 4);
      DivStep(yoe, 100);
    }
  }

  /** The epoch day of the next civil date is one more: the civil calendar
      and the epoch-day count advance together. */
  lemma EpochDayOfNextDate(y: int, m: int, d: int)
    requires ValidDate(y, m, d)
    ensures var (y', m', d') := NextDate(y, m, d); EpochDay(y', m', d') == EpochDay(y, m, d) + 1
  {
    if d < DaysInMonth(y, m) {
    } else if m == 2 {
      EndOfFebruary(y);
    } else if m == 12 {
      EndOfDecember(y);
    } else {
      MonthLengthsInMarchYear(m - 3 + (if m <= 2 then 12 else 0), y, m);
    }
  }

  /** The day after the last of February is the first of March, which
      starts the next March-based year. */
  lemma EndOfFebruary(y: int)
    ensures EpochDay(y, 3, 1) == EpochDay(y, 2, DaysInMonth(y, 2)) + 1
  {
    MarchYearLength(y - 1);
  }

  /** December 31st and January 1st lie in the same March-based year. */
  lemma EndOfDecember(y: int)
    ensures EpochDay(y + 1, 1, 1) == EpochDay(y, 12, 31) + 1
  {
  }

  /** In the March-based year, month `mp` starts `(153 * mp + 2) / 5` days
      in, so consecutive starts differ by the month's length. */
  lemma MonthLengthsInMarchYear(mp: int, y: int, m: int)
    requires 1 <= m <= 12 && m != 2 && m != 12
    requires mp == if m > 2 then m - 3 else m + 9
    ensures (153 * (mp + 1) + 2) / 5 - (153 * mp + 2) / 5 == DaysInMonth(y, m)
  {
    if m == 1 { } else if m == 3 { } else if m == 4 { } else if m == 5 { } else if m == 6 { }
    else if m == 7 { } else if m == 8 { } else if m == 9 { } else if m == 10 { } else { }
  }

  /** `LocalDateTime.of(y, m, d, hour, minute)`. */
  function At(y: int, m: int, d: int, hour: nat, minute: nat): DateTime
    requires ValidDate(y, m, d) && hour < 24 && minute < 60
  {
    DateTime(EpochDay(y, m, d), TimeOf(hour, minute))
  }
}

=== FILE: collections.dfy ===
/** Sequences as the repositories return them: the rows of a table, a
    filtered result and a result put in `ORDER BY` order. */
module Collections {

  /** The rows of a table keyed by generated ids below `n`, in id order. */
  function Rows<T(==,!new)>(m: map<nat, T>, n: nat): (r: seq<T>)
    ensures |r| <= n
    ensures forall x :: x in r <==> exists k :: k < n && k in m && m[k] == x
  {
    if n == 0 then []
    else
      var prefix := Rows(m, n - 1);
      if n - 1 in m then prefix + [m[n - 1]] else prefix
  }

  /** Rows with distinct keys that carry their own key are distinct. */
  lemma {:induction false} RowsDistinct<T(!new)>(m: map<nat, T>, n: nat, key: T -> nat)
    requires forall k :: k in m ==> key(m[k]) == k
    ensures Distinct(Rows(m, n))
  {
    if n > 0 {
      RowsDistinct(m, n - 1, key);
      var prefix := Rows(m, n - 1);
      if n - 1 in m {
        forall x | x in prefix
          ensures x != m[n - 1]
        {
          var k :| k < n - 1 && k in m && m[k] == x;
        }
        AppendFreshKeepsDistinct(prefix, m[n - 1]);
      }
    }
  }

  predicate Distinct<T(==)>(xs: seq<T>) {
    forall i, j :: 0 <= i < j < |xs| ==> xs[i] != xs[j]
  }

  lemma AppendFreshKeepsDistinct<T>(xs: seq<T>, x: T)
    requires Distinct(xs) && x !in xs
    ensures Distinct(xs + [x])
  {
    var ys := xs + [x];
    forall i, j | 0 <= i < j < |ys|
      ensures ys[i] != ys[j]
    {
      if j == |xs| {
        assert ys[i] == xs[i];
      }
    }
  }

  /** In a sequence without repeats every value occurs at most once. */
  lemma {:induction false} DistinctCountsOnce<T>(xs: seq<T>, x: T)
    requires Distinct(xs)
    ensures multiset(xs)[x] <= 1
  {
    if |xs| > 0 {
      var tail := xs[1..];
      assert xs == [xs[0]] + tail;
      assert Distinct(tail) by {
        forall i, j | 0 <= i < j < |tail|
          ensures tail[i] != tail[j]
        {
          assert tail[i] == xs[i + 1] && tail[j] == xs[j + 1];
        }
      }
      DistinctCountsOnce(tail, x);
      if x == xs[0] {
        assert x !in tail by {
          forall k | 0 <= k < |tail|
            ensures tail[k] != x
          {
            assert tail[k] == xs[k + 1];
          }
        }
      }
    }
  }

  /** A value at two positions occurs at least twice. */
  lemma RepeatedCountsTwice<T>(ys: seq<T>, i: nat, j: nat)
    requires i < j < |ys| && ys[i] == ys[j]
    ensures multiset(ys)[ys[i]] >= 2
  {
    assert ys == ys[..j] + [ys[j]] + ys[j + 1..];
    assert ys[..j][i] == ys[i];
  }

  /** A sequence holding one value only holds it as often as it is long. */
  lemma {:induction false} ConstantCount<T>(xs: seq<T>, x: T)
    requires forall k :: 0 <= k < |xs| ==> xs[k] == x
    ensures multiset(xs)[x] == |xs|
  {
    if |xs| > 0 {
      assert xs == [xs[0]] + xs[1..];
      ConstantCount(xs[1..], x);
    }
  }

  /** Taking part of a sequence without repeats (a filter, a reordering)
      yields a sequence without repeats. */
  lemma SubMultisetOfDistinct<T>(xs: seq<T>, ys: seq<T>)
    requires Distinct(xs) && multiset(ys) <= multiset(xs)
    ensures Distinct(ys)
  {
    forall i, j | 0 <= i < j < |ys|
      ensures ys[i] != ys[j]
    {
      if ys[i] == ys[j] {
        RepeatedCountsTwice(ys, i, j);
        DistinctCountsOnce(xs, ys[i]);
      }
    }
  }

  /** The elements of `xs` that satisfy `p`, in their original order. */
  function Filter<T(==,!new)>(xs: seq<T>, p: T -> bool): (r: seq<T>)
    ensures |r| <= |xs|
    ensures forall x :: x in r <==> x in xs && p(x)
    ensures multiset(r) <= multiset(xs)
  {
    if |xs| == 0 then []
    else
      var rest := Filter(xs[1..], p);
      assert xs == [xs[0]] + xs[1..];
      if p(xs[0]) then [xs[0]] + rest else rest
  }

  /** The elements kept and the elements dropped together are the input. */
  lemma {:induction false} FilterPartitions<T(!new)>(xs: seq<T>, p: T -> bool, q: T -> bool)
    requires forall x :: x in xs ==> (q(x) <==> !p(x))
    ensures multiset(Filter(xs, p)) + multiset(Filter(xs, q)) == multiset(xs)
  {
    if |xs| > 0 {
      assert xs == [xs[0]] + xs[1..];
      FilterPartitions(xs[1..], p, q);
    }
  }

  predicate SortedBy<T>(xs: seq<T>, key: T -> int) {
    forall i, j :: 0 <= i < j < |xs| ==> key(xs[i]) <= key(xs[j])
  }

  function Insert<T>(x: T, xs: seq<T>, key: T -> int): (r: seq<T>)
    requires SortedBy(xs, key)
    ensures SortedBy(r, key)
    ensures multiset(r) == multiset(xs) + multiset{x}
    ensures |r| == |xs| + 1
    ensures forall i :: 0 <= i < |r| ==> r[i] == x || r[i] in xs
  {
    if |xs| == 0 then [x]
    else if key(x) <= key(xs[0]) then [x] + xs
    else
      var rest := Insert(x, xs[1..], key);
      InsertedTailStaysAbove(x, xs, rest, key);
      [xs[0]] + rest
  }

  lemma InsertedTailStaysAbove<T>(x: T, xs: seq<T>, rest: seq<T>, key: T -> int)
    requires |xs| > 0 && SortedBy(xs, key) && key(xs[0]) < key(x)
    requires SortedBy(rest, key)
    requires multiset(rest) == multiset(xs[1..]) + multiset{x}
    requires forall i :: 0 <= i < |rest| ==> rest[i] == x || rest[i] in xs[1..]
    ensures SortedBy([xs[0]] + rest, key)
    ensures multiset([xs[0]] + rest) == multiset(xs) + multiset{x}
    ensures forall i :: 0 <= i < |[xs[0]] + rest| ==> ([xs[0]] + rest)[i] == x || ([xs[0]] + rest)[i] in xs
  {
    assert xs == [xs[0]] + xs[1..];
    forall i | 0 <= i < |rest|
      ensures key(xs[0]) <= key(rest[i])
    {
      if rest[i] != x {
        var j :| 0 <= j < |xs[1..]| && xs[1..][j] == rest[i];
        assert xs[j + 1] == rest[i];
      }
    }
  }

  /** `ORDER BY key`: a stable insertion sort, one of the orders the
      database may return when keys tie. */
  function SortBy<T>(xs: seq<T>, key: T -> int): (r: seq<T>)
    ensures SortedBy(r, key)
    ensures multiset(r) == multiset(xs)
    ensures |r| == |xs|
  {
    if |xs| == 0 then []
    else
      assert xs == [xs[0]] + xs[1..];
      Insert(xs[0], SortBy(xs[1..], key), key)
  }

  /** Applying `f` to every element. */
  function MapSeq<T, U>(xs: seq<T>, f: T -> U): (r: seq<U>)
    ensures |r| == |xs|
    ensures forall i :: 0 <= i < |xs| ==> r[i] == f(xs[i])
  {
    seq(|xs|, i requires 0 <= i < |xs| => f(xs[i]))
  }
}

=== FILE: dto.dfy ===
/** The request and response shapes of the two services. */
module Dto {
  import opened Outcomes
  import opened Calendar
  import opened Rates

  /** Guest data as received for creation, update or check-in. */
  datatype GuestRequest = GuestRequest(name: string, document: string, phone: string)

  /** A check-in or stay-update request; entry, exit and the vehicle flag
      may be null. */
  datatype StayRequest = StayRequest(
    guest: GuestRequest,
    entry: Option<DateTime>,
    exit: Option<DateTime>,
    vehicle: Option<bool>)

  /** The search parameters; a null filter restricts nothing. */
  datatype GuestFilters = GuestFilters(name: Option<string>, document: Option<string>, phone: Option<string>)

  /** A guest as returned, with the aggregates that only some paths fill in. */
  datatype GuestResponse = GuestResponse(
    id: Option<nat>,
    name: string,
    document: string,
    phone: string,
    totalSpent: Option<Cents>,
    lastStayValue: Option<Cents>,
    inHotel: Option<bool>)

  /** A stay as returned, with its guest and whether it is still open. */
  datatype StayResponse = StayResponse(
    id: Option<nat>,
    guest: Option<GuestResponse>,
    entry: Option<DateTime>,
    exit: Option<DateTime>,
    vehicle: bool,
    total: Option<Cents>,
    active: bool)
}

=== FILE: examples.dfy ===
/** The priced stays of the entity tests, replayed on civil dates. July
    15th, 2024 is a Monday. */
module Examples {
  import opened Outcomes
  import opened Calendar
  import opened Rates
  import opened StayEntity
  import Calculator

  lemma July15th2024IsMonday()
    ensures EpochDay(2024, 7, 13) == 19917 && EpochDay(2024, 7, 15) == 19919 && EpochDay(2024, 7, 17) == 19921
    ensures DayOfWeekOf(19919) == Monday
    ensures IsWeekend(19917) && IsWeekend(19918) && !IsWeekend(19919) && !IsWeekend(19920) && !IsWeekend(19921)
  {}

  /** Monday 14:00 to Wednesday 10:00: two weekday nights. */
  lemma TwoWeekdayNights(now: DateTime)
    ensures var c := Stay(None, Some(1), Some(At(2024, 7, 15, 14, 0)), Some(At(2024, 7, 17, 10, 0)), false, None);
      TotalAsOf(c, now).0 == 24000 && Calculator.Value(c.entry, c.exit, c.vehicle, now) == 24000
  {
    var c := Stay(None, Some(1), Some(At(2024, 7, 15, 14, 0)), Some(At(2024, 7, 17, 10, 0)), false, None);
    July15th2024IsMonday();
    Calculator.AgreesWithStayEntity(c, now);
    assert NightsBilled(c.entry.value, c.exit.value) == 2;
  }

  /** The same stay with a vehicle: two weekday parking surcharges more. */
  lemma TwoWeekdayNightsWithVehicle(now: DateTime)
    ensures var c := Stay(None, Some(1), Some(At(2024, 7, 15, 14, 0)), Some(At(2024, 7, 17, 10, 0)), true, None);
      TotalAsOf(c, now).0 == 27000 && Calculator.Value(c.entry, c.exit, c.vehicle, now) == 27000
  {
    var c := Stay(None, Some(1), Some(At(2024, 7, 15, 14, 0)), Some(At(2024, 7, 17, 10, 0)), true, None);
    July15th2024IsMonday();
    Calculator.AgreesWithStayEntity(c, now);
    assert NightsBilled(c.entry.value, c.exit.value) == 2;
  }

  /** Saturday 14:00 to Monday 10:00: two weekend nights. */
  lemma TwoWeekendNights(now: DateTime)
    ensures var c := Stay(None, Some(1), Some(At(2024, 7, 13, 14, 0)), Some(At(2024, 7, 15, 10, 0)), false, None);
      TotalAsOf(c, now).0 == 30000 && Calculator.Value(c.entry, c.exit, c.vehicle, now) == 30000
  {
    var c := Stay(None, Some(1), Some(At(2024, 7, 13, 14, 0)), Some(At(2024, 7, 15, 10, 0)), false, None);
    July15th2024IsMonday();
    Calculator.AgreesWithStayEntity(c, now);
    assert NightsBilled(c.entry.value, c.exit.value) == 2;
  }

  /** Leaving after 16:30 costs one more night. */
  lemma LateExitAddsANight(now: DateTime)
    ensures var c := Stay(None, Some(1), Some(At(2024, 7, 15, 14, 0)), Some(At(2024, 7, 17, 16, 31)), false, None);
      TotalAsOf(c, now).0 == 36000
  {
    var c := Stay(None, Some(1), Some(At(2024, 7, 15, 14, 0)), Some(At(2024, 7, 17, 16, 31)), false, None);
    July15th2024IsMonday();
    Calculator.AgreesWithStayEntity(c, now);
    assert NightsBilled(c.entry.value, c.exit.value) == 3;
  }
}

=== FILE: guest_entity.dfy ===
/** A guest (hospede) and the in-memory list of its stays that the entity
    keeps consistent with each stay's link back to its guest. */
module GuestEntity {
  import opened Outcomes
  import opened StayEntity

  /** `id` is null until the guest is saved; guests are the same entity
      when their ids are equal. */
  datatype Guest = Guest(id: Option<nat>, name: string, document: string, phone: string)

  /** Column widths of the guest table. */
  const NameLength: nat := 255
  const DocumentLength: nat := 50
  const PhoneLength: nat := 20

  /** The guest's texts fit their columns, so saving it is not refused. */
  predicate FitsColumns(g: Guest) {
    |g.name| <= NameLength && |g.document| <= DocumentLength && |g.phone| <= PhoneLength
  }

  /** A guest object together with its `checkins` list. */
  datatype GuestWithStays = GuestWithStays(guest: Guest, stays: seq<Stay>)

  /** The three-argument constructor: a fresh guest starts with no stays. */
  function NewGuest(name: string, document: string, phone: string): (g: GuestWithStays)
    ensures g.guest.id.None? && |g.stays| == 0
    ensures g.guest.name == name && g.guest.document == document && g.guest.phone == phone
  {
    GuestWithStays(Guest(None, name, document, phone), [])
  }

  /** Entity equality: by id only. */
  predicate SameGuest(a: Guest, b: Guest) {
    a.id == b.id
  }

  /** Stay equality: by id only (two unsaved stays, both without id, are equal). */
  predicate SameStay(a: Stay, b: Stay) {
    a.id == b.id
  }

  /** Appends the stay to the guest's list and points the stay at this guest. */
  function AddStay(g: GuestWithStays, c: Stay): (r: (GuestWithStays, Stay))
    ensures r.0.guest == g.guest
    ensures |r.0.stays| == |g.stays| + 1 && r.0.stays[..|g.stays|] == g.stays
    ensures r.0.stays[|g.stays|] == r.1
    ensures r.1.guest == g.guest.id
    ensures r.1.id == c.id && r.1.entry == c.entry && r.1.exit == c.exit
    ensures r.1.vehicle == c.vehicle && r.1.total == c.total
  {
    var linked := c.(guest := g.guest.id);
    (GuestWithStays(g.guest, g.stays + [linked]), linked)
  }

  /** The position of the first stay equal (by id) to `c`. */
  function FirstSameStay(stays: seq<Stay>, c: Stay): (k: Option<nat>)
    ensures k.None? <==> forall i :: 0 <= i < |stays| ==> !SameStay(stays[i], c)
    ensures k.Some? ==> k.value < |stays| && SameStay(stays[k.value], c)
    ensures k.Some? ==> forall i :: 0 <= i < k.value ==> !SameStay(stays[i], c)
  {
    if |stays| == 0 then None
    else if SameStay(stays[0], c) then Some(0)
    else
      var k := FirstSameStay(stays[1..], c);
      if k.None? then None else Some(k.value + 1)
  }

  /** Removes the first stay equal to `c` from the list (if any) and clears
      the link of `c` to its guest. */
  function RemoveStay(g: GuestWithStays, c: Stay): (r: (GuestWithStays, Stay))
    ensures r.0.guest == g.guest
    ensures r.1.guest.None?
    ensures r.1.id == c.id && r.1.entry == c.entry && r.1.exit == c.exit
    ensures r.1.vehicle == c.vehicle && r.1.total == c.total
    ensures (forall i :: 0 <= i < |g.stays| ==> !SameStay(g.stays[i], c)) ==> r.0.stays == g.stays
    ensures FirstSameStay(g.stays, c).Some? ==>
      var k := FirstSameStay(g.stays, c).value;
      r.0.stays == g.stays[..k] + g.stays[k + 1..]
  {
    var unlinked := c.(guest := None);
    match FirstSameStay(g.stays, c)
    case None => (g, unlinked)
    case Some(k) => (GuestWithStays(g.guest, g.stays[..k] + g.stays[k + 1..]), unlinked)
  }

  /** Removing a stay just added, that was not in the list before, gives
      back the list as it was, and the stay ends up unlinked. */
  lemma RemoveUndoesAdd(g: GuestWithStays, c: Stay)
    requires forall i :: 0 <= i < |g.stays| ==> !SameStay(g.stays[i], c)
    ensures RemoveStay(AddStay(g, c).0, c).0 == g
    ensures RemoveStay(AddStay(g, c).0, c).1 == c.(guest := None)
  {
    var added := AddStay(g, c).0;
    assert FirstSameStay(added.stays, c) == Some(|g.stays|) by {
      forall i | 0 <= i < |g.stays|
        ensures !SameStay(added.stays[i], c)
      {
        assert added.stays[i] == g.stays[i];
      }
    }
    assert added.stays[..|g.stays|] + added.stays[|g.stays| + 1..] == g.stays;
  }
}

=== FILE: guest_mapper.dfy ===
/** Conversion between guest requests, guest entities and guest responses. */
module GuestMapper {
  import opened Outcomes
  import opened Rates
  import opened GuestEntity
  import opened Dto

  /** A new, unsaved guest with the request's three fields. */
  function ToEntity(dto: Option<GuestRequest>): (r: Option<Guest>)
    ensures r.None? <==> dto.None?
    ensures r.Some? ==> r.value.id.None?
    ensures r.Some? ==>
      r.value.name == dto.value.name && r.value.document == dto.value.document && r.value.phone == dto.value.phone
  {
    match dto
    case None => None
    case Some(d) => Some(Guest(None, d.name, d.document, d.phone))
  }

  /** The guest's fields with the given aggregates; a null aggregate is
      reported as 0, 0 or false. */
  function ToResponse(entity: Option<Guest>, totalSpent: Option<Cents>, lastStayValue: Option<Cents>, inHotel: Option<bool>)
    : (r: Option<GuestResponse>)
    ensures r.None? <==> entity.None?
    ensures r.Some? ==>
      && r.value.id == entity.value.id && r.value.name == entity.value.name
      && r.value.document == entity.value.document && r.value.phone == entity.value.phone
    ensures r.Some? ==> r.value.totalSpent.Some? && r.value.lastStayValue.Some? && r.value.inHotel.Some?
    ensures r.Some? && totalSpent.Some? ==> r.value.totalSpent == totalSpent
    ensures r.Some? && totalSpent.None? ==> r.value.totalSpent == Some(0)
    ensures r.Some? && lastStayValue.Some? ==> r.value.lastStayValue == lastStayValue
    ensures r.Some? && lastStayValue.None? ==> r.value.lastStayValue == Some(0)
    ensures r.Some? && inHotel.Some? ==> r.value.inHotel == inHotel
    ensures r.Some? && inHotel.None? ==> r.value.inHotel == Some(false)
  {
    match entity
    case None => None
    case Some(g) =>
      Some(GuestResponse(g.id, g.name, g.document, g.phone,
        Some(totalSpent.GetOr(0)), Some(lastStayValue.GetOr(0)), Some(inHotel.GetOr(false))))
  }

  /** The guest's fields without aggregates: nothing spent, not in the hotel. */
  function ToSimpleResponse(entity: Option<Guest>): (r: Option<GuestResponse>)
    ensures r.None? <==> entity.None?
    ensures r.Some? ==> r.value.totalSpent == Some(0) && r.value.lastStayValue == Some(0) && r.value.inHotel == Some(false)
    ensures r.Some? ==>
      && r.value.id == entity.value.id && r.value.name == entity.value.name
      && r.value.document == entity.value.document && r.value.phone == entity.value.phone
  {
    ToResponse(entity, Some(0), Some(0), Some(false))
  }

  /** Overwrites name, document and phone; a no-op when either side is null. */
  function UpdateFromRequest(entity: Option<Guest>, dto: Option<GuestRequest>): (r: Option<Guest>)
    ensures entity.None? || dto.None? ==> r == entity
    ensures entity.Some? && dto.Some? ==> r.Some? && r.value.id == entity.value.id
    ensures entity.Some? && dto.Some? ==>
      r.value.name == dto.value.name && r.value.document == dto.value.document && r.value.phone == dto.value.phone
  {
    if entity.None? || dto.None? then entity
    else Some(entity.value.(name := dto.value.name, document := dto.value.document, phone := dto.value.phone))
  }

  /** Updating with the same request twice is updating once, and updating a
      guest that has no id yields exactly the entity built from the request. */
  lemma UpdateIdempotentAndAgreesWithToEntity(entity: Option<Guest>, dto: Option<GuestRequest>)
    ensures UpdateFromRequest(UpdateFromRequest(entity, dto), dto) == UpdateFromRequest(entity, dto)
    ensures entity.Some? && entity.value.id.None? && dto.Some? ==> UpdateFromRequest(entity, dto) == ToEntity(dto)
  {}

  /** The simple response keeps everything needed to rebuild the guest. */
  lemma SimpleResponseDeterminesGuest(g: Guest)
    ensures var r := ToSimpleResponse(Some(g)).value;
      Guest(r.id, r.name, r.document, r.phone) == g
  {}
}

=== FILE: guest_queries.dfy ===
/** The guest repository's queries over the rows of the guest table (and,
    for the joins, the stay table). Name ordering follows the database
    collation, given as a key function. */
module GuestQueries {
  import opened Outcomes
  import opened Strings
  import opened Collections
  import opened StayEntity
  import opened GuestEntity
  import opened Dto
  import StayQueries

  /** The guest registered under a document, if any. */
  function FindByDocument(guests: seq<Guest>, document: string): (r: Option<Guest>)
    ensures r.None? <==> forall i :: 0 <= i < |guests| ==> guests[i].document != document
    ensures r.Some? ==> r.value in guests && r.value.document == document
    decreases |guests|
  {
    if |guests| == 0 then None
    else if guests[0].document == document then Some(guests[0])
    else
      assert forall i :: 1 <= i < |guests| ==> guests[i] == guests[1..][i - 1];
      FindByDocument(guests[1..], document)
  }

  predicate ExistsByDocument(guests: seq<Guest>, document: string) {
    exists i :: 0 <= i < |guests| && guests[i].document == document
  }

  /** The existence test and the lookup agree. */
  lemma ExistsIffFound(guests: seq<Guest>, document: string)
    ensures ExistsByDocument(guests, document) <==> FindByDocument(guests, document).Some?
  {}

  /** The name filter: `LOWER(name) LIKE LOWER('%' || text || '%')`. */
  predicate NameMatches(g: Guest, text: string) {
    Like(ToLower(g.name), "%" + ToLower(text) + "%")
  }

  predicate PassesFilters(g: Guest, f: GuestFilters) {
    && (f.name.None? || NameMatches(g, f.name.value))
    && (f.document.None? || g.document == f.document.value)
    && (f.phone.None? || g.phone == f.phone.value)
  }

  /** The guests that pass every given filter. The query has no `ORDER BY`,
      so the database promises no order; table order is this model's choice,
      and only membership and multiplicity reflect the query. */
  function Search(guests: seq<Guest>, f: GuestFilters): (r: seq<Guest>)
    ensures forall g :: g in r <==> g in guests && PassesFilters(g, f)
    ensures multiset(r) <= multiset(guests)
  {
    Filter(guests, g => PassesFilters(g, f))
  }

  /** With every filter null the search returns the whole table (in the
      table order the model chooses for an unordered query). */
  lemma {:induction false} SearchWithoutFilters(guests: seq<Guest>)
    ensures Search(guests, GuestFilters(None, None, None)) == guests
    decreases |guests|
  {
    if |guests| > 0 {
      SearchWithoutFilters(guests[1..]);
      assert guests == [guests[0]] + guests[1..];
    }
  }

  /** Lower-casing adds no wildcard characters. */
  lemma ToLowerKeepsLiteral(text: string)
    requires IsLiteral(text)
    ensures IsLiteral(ToLower(text))
  {}

  /** For search text without `%` or `_`, the name filter is a
      case-insensitive substring test. */
  lemma NameFilterIsSubstring(g: Guest, text: string)
    requires IsLiteral(text)
    ensures NameMatches(g, text) <==> Contains(ToLower(g.name), ToLower(text))
  {
    ToLowerKeepsLiteral(text);
    LikeSubstring(ToLower(g.name), ToLower(text));
  }

  /** The guest has a stay with an exit (it has left at least once). */
  predicate HasLeft(stays: seq<Stay>, g: Guest) {
    g.id.Some? && exists c :: c in stays && StayQueries.BelongsTo(c, g.id.value) && c.exit.Some?
  }

  /** The guest has a stay without exit (it is in the hotel). */
  predicate IsInHotel(stays: seq<Stay>, g: Guest) {
    g.id.Some? && exists c :: c in stays && StayQueries.IsOpenStayOf(c, g.id.value)
  }

  /** The guests with a finished stay, in table order. */
  function Left(guests: seq<Guest>, stays: seq<Stay>): (r: seq<Guest>)
    ensures forall g :: g in r <==> g in guests && HasLeft(stays, g)
    ensures multiset(r) <= multiset(guests)
  {
    Filter(guests, g => HasLeft(stays, g))
  }

  /** The guests with an open stay, in table order. */
  function Present(guests: seq<Guest>, stays: seq<Stay>): (r: seq<Guest>)
    ensures forall g :: g in r <==> g in guests && IsInHotel(stays, g)
    ensures multiset(r) <= multiset(guests)
  {
    Filter(guests, g => IsInHotel(stays, g))
  }

  /** `SELECT DISTINCT h ... JOIN h.checkins c WHERE c.dataSaida IS NOT NULL
      ORDER BY h.nome`. */
  function WhoLeft(guests: seq<Guest>, stays: seq<Stay>, collation: string -> int): (r: seq<Guest>)
    ensures forall g :: g in r <==> g in guests && HasLeft(stays, g)
    ensures multiset(r) <= multiset(guests)
    ensures Distinct(guests) ==> Distinct(r)
    ensures forall i, j :: 0 <= i < j < |r| ==> collation(r[i].name) <= collation(r[j].name)
  {
    var left := Left(guests, stays);
    assert Distinct(guests) ==> Distinct(left) by {
      if Distinct(guests) {
        SubMultisetOfDistinct(guests, left);
      }
    }
    AllByName(left, collation)
  }

  /** `SELECT DISTINCT h ... JOIN h.checkins c WHERE c.dataSaida IS NULL
      ORDER BY h.nome`. */
  function InHotel(guests: seq<Guest>, stays: seq<Stay>, collation: string -> int): (r: seq<Guest>)
    ensures forall g :: g in r <==> g in guests && IsInHotel(stays, g)
    ensures multiset(r) <= multiset(guests)
    ensures Distinct(guests) ==> Distinct(r)
    ensures forall i, j :: 0 <= i < j < |r| ==> collation(r[i].name) <= collation(r[j].name)
  {
    var present := Present(guests, stays);
    assert Distinct(guests) ==> Distinct(present) by {
      if Distinct(guests) {
        SubMultisetOfDistinct(guests, present);
      }
    }
    AllByName(present, collation)
  }

  /** A guest who left once and checked in again is in both lists. */
  lemma ReturningGuestInBothLists(guests: seq<Guest>, stays: seq<Stay>, collation: string -> int, g: Guest)
    requires g in guests && HasLeft(stays, g) && IsInHotel(stays, g)
    ensures g in WhoLeft(guests, stays, collation) && g in InHotel(guests, stays, collation)
  {}

  /** `LEFT JOIN FETCH h.checkins ORDER BY h.nome`: every guest, with or
      without stays, once. */
  function AllByName(guests: seq<Guest>, collation: string -> int): (r: seq<Guest>)
    ensures multiset(r) == multiset(guests)
    ensures forall g :: g in r <==> g in guests
    ensures Distinct(guests) ==> Distinct(r)
    ensures forall i, j :: 0 <= i < j < |r| ==> collation(r[i].name) <= collation(r[j].name)
  {
    var r := SortBy(guests, (g: Guest) => collation(g.name));
    assert forall g :: g in r <==> g in multiset(r);
    assert Distinct(guests) ==> Distinct(r) by {
      if Distinct(guests) {
        SubMultisetOfDistinct(guests, r);
      }
    }
    r
  }
}

=== FILE: guest_service.dfy ===
/** The guest registry service: create, read, update and delete guests and
    the three guest lists, each guest reported with its aggregates (total
    spent, value of the last stay, whether it is in the hotel). A failed
    call leaves the store as it was. */
module GuestService {
  import opened Outcomes
  import opened Rates
  import opened Collections
  import opened StayEntity
  import opened GuestEntity
  import opened Dto
  import opened Store
  import StayQueries
  import GuestQueries

  /** The guest with its three aggregates. A guest without id matches no
      stay row, so it reports nothing spent and not in the hotel. */
  function Summary(s: Store, g: Guest): (r: GuestResponse)
    ensures r.id == g.id && r.name == g.name && r.document == g.document && r.phone == g.phone
    ensures r.totalSpent.Some? && r.lastStayValue.Some? && r.inHotel.Some?
  {
    var rows := StayRows(s);
    if g.id.None? then GuestResponse(g.id, g.name, g.document, g.phone, Some(0), Some(0), Some(false))
    else
      var k := g.id.value;
      GuestResponse(g.id, g.name, g.document, g.phone,
        Some(StayQueries.TotalSpent(rows, k)),
        Some(StayQueries.LastStayValue(rows, k).GetOr(0)),
        Some(StayQueries.HasOpenStay(rows, k)))
  }

  /** What the aggregates of a stored guest say about its stays: in the
      hotel exactly when one of its stays is open; every stored total of
      its stays is part of the amount spent; with no finished stay it has
      spent nothing and its last stay is worth 0. */
  lemma SummaryOfStoredGuest(s: Store, k: nat)
    requires Valid(s) && k in s.guests
    ensures Summary(s, s.guests[k]).inHotel == Some(true) <==>
      exists j :: j in s.stays && StayQueries.IsOpenStayOf(s.stays[j], k)
    ensures forall j :: j in s.stays && StayQueries.BelongsTo(s.stays[j], k) && s.stays[j].total.Some? ==>
      s.stays[j].total.value <= Summary(s, s.guests[k]).totalSpent.value
    ensures (forall j :: j in s.stays && StayQueries.BelongsTo(s.stays[j], k) ==> IsActive(s.stays[j])) ==>
      Summary(s, s.guests[k]).totalSpent == Some(0) && Summary(s, s.guests[k]).lastStayValue == Some(0)
  {
    RowsOfValid(s);
    HasOpenStayInStore(s, k);
    var rows := StayRows(s);
    forall j | j in s.stays && StayQueries.BelongsTo(s.stays[j], k) && s.stays[j].total.Some?
      ensures s.stays[j].total.value <= StayQueries.TotalSpent(rows, k)
    {
      assert s.stays[j] in rows;
      var i :| 0 <= i < |rows| && rows[i] == s.stays[j];
      assert StayQueries.Spent(rows[i], k) == s.stays[j].total.value;
    }
    if forall j :: j in s.stays && StayQueries.BelongsTo(s.stays[j], k) ==> IsActive(s.stays[j]) {
      forall i | 0 <= i < |rows|
        ensures StayQueries.Spent(rows[i], k) == 0 && !StayQueries.Priced(rows[i], k)
      {
        assert rows[i] in rows;
      }
    }
  }

  /** A document is taken exactly when a stored guest has it. */
  lemma DocumentTaken(s: Store, document: string)
    requires Valid(s)
    ensures GuestQueries.ExistsByDocument(GuestRows(s), document) <==>
      exists k :: k in s.guests && s.guests[k].document == document
  {
    RowsOfValid(s);
    var rows := GuestRows(s);
    if exists k :: k in s.guests && s.guests[k].document == document {
      var k :| k in s.guests && s.guests[k].document == document;
      assert s.guests[k] in rows;
      var i :| 0 <= i < |rows| && rows[i] == s.guests[k];
    }
    if GuestQueries.ExistsByDocument(rows, document) {
      var i :| 0 <= i < |rows| && rows[i].document == document;
      assert rows[i] in rows;
    }
  }

  /** The registration step shared with check-in: refuse a document that
      is already registered, otherwise save a new guest with the three
      fields as given. */
  function CreateGuestRow(s: Store, req: GuestRequest): (r: Result<(Store, Guest)>)
    ensures r.Ok? <==> !GuestQueries.ExistsByDocument(GuestRows(s), req.document) && FitsColumns(Guest(None, req.name, req.document, req.phone))
    ensures GuestQueries.ExistsByDocument(GuestRows(s), req.document) ==> r == Err(DocumentAlreadyRegistered(req.document))
    ensures r.Ok? ==>
      var (t, g) := r.value;
      && g == Guest(Some(s.nextGuestId), req.name, req.document, req.phone)
      && t.guests == s.guests[s.nextGuestId := g] && t.nextGuestId == s.nextGuestId + 1
      && t.stays == s.stays && t.nextStayId == s.nextStayId
  {
    if GuestQueries.ExistsByDocument(GuestRows(s), req.document) then Err(DocumentAlreadyRegistered(req.document))
    else InsertGuest(s, Guest(None, req.name, req.document, req.phone))
  }

  function CreateGuest(s: Store, req: GuestRequest): (r: Result<(Store, GuestResponse)>)
    ensures r.Err? <==> CreateGuestRow(s, req).Err?
    ensures r.Err? ==> r.error == CreateGuestRow(s, req).error
    ensures r.Ok? ==>
      && r.value.0 == CreateGuestRow(s, req).value.0
      && r.value.1.id == Some(s.nextGuestId)
      && r.value.1.name == req.name && r.value.1.document == req.document && r.value.1.phone == req.phone
  {
    match CreateGuestRow(s, req)
    case Err(e) => Err(e)
    case Ok((t, g)) => Ok((t, Summary(t, g)))
  }

  /** Creating a guest is refused with the duplicate error exactly when a
      stored guest has the document. */
  lemma CreateGuestRefusesTakenDocument(s: Store, req: GuestRequest)
    requires Valid(s)
    ensures CreateGuest(s, req) == Err(DocumentAlreadyRegistered(req.document)) <==>
      exists k :: k in s.guests && s.guests[k].document == req.document
  {
    DocumentTaken(s, req.document);
    if !GuestQueries.ExistsByDocument(GuestRows(s), req.document) && CreateGuestRow(s, req).Err? {
      assert GuestColumnsCheck(Guest(None, req.name, req.document, req.phone)).Fail?;
    }
  }

  /** A successful creation keeps the store valid and leaves every other
      guest and every stay untouched. */
  lemma CreateGuestEffects(s: Store, req: GuestRequest)
    requires Valid(s)
    ensures CreateGuest(s, req).Ok? ==>
      var t := CreateGuest(s, req).value.0;
      && Valid(t) && t.stays == s.stays
      && t.guests.Keys == s.guests.Keys + {s.nextGuestId} && s.nextGuestId !in s.guests
      && (forall k :: k in s.guests ==> t.guests[k] == s.guests[k])
  {
    var r := CreateGuestRow(s, req);
    if r.Ok? {
      var (t, g) := r.value;
      assert CreateGuest(s, req).value.0 == t;
      assert t == s.(guests := s.guests[s.nextGuestId := g], nextGuestId := s.nextGuestId + 1);
      DocumentTaken(s, req.document);
      assert forall b :: b in s.guests ==> s.guests[b].document != g.document;
      AddGuestKeepsValid(s, g);
    }
  }

  /** A newly created guest has spent nothing and is not in the hotel. */
  lemma CreateGuestReportsNothing(s: Store, req: GuestRequest)
    requires Valid(s)
    ensures CreateGuest(s, req).Ok? ==>
      var g := CreateGuest(s, req).value.1;
      g.totalSpent == Some(0) && g.lastStayValue == Some(0) && g.inHotel == Some(false)
  {
    var r := CreateGuestRow(s, req);
    if r.Ok? {
      var (t, g) := r.value;
      assert CreateGuest(s, req).value == (t, Summary(t, g));
      NoStaysOfUnknownGuest(s, s.nextGuestId);
      assert StayRows(t) == StayRows(s);
      SummaryWithoutStays(t, g);
    }
  }

  /** A guest that owns no stay row has spent nothing, has no last stay and
      is not in the hotel. */
  lemma SummaryWithoutStays(s: Store, g: Guest)
    requires g.id.Some? && forall c :: c in StayRows(s) ==> !StayQueries.BelongsTo(c, g.id.value)
    ensures Summary(s, g).totalSpent == Some(0) && Summary(s, g).lastStayValue == Some(0)
    ensures Summary(s, g).inHotel == Some(false)
  {
    var rows := StayRows(s);
    var k := g.id.value;
    forall i | 0 <= i < |rows|
      ensures StayQueries.Spent(rows[i], k) == 0 && !StayQueries.Priced(rows[i], k)
      ensures !StayQueries.IsOpenStayOf(rows[i], k)
    {
      assert rows[i] in rows;
    }
  }

  /** Reading a guest by id. */
  function FindGuest(s: Store, id: nat): (r: Result<GuestResponse>)
    ensures r.Err? <==> id !in s.guests
    ensures r.Err? ==> r.error == GuestNotFound(id)
    ensures r.Ok? ==> r.value == Summary(s, s.guests[id])
  {
    if id !in s.guests then Err(GuestNotFound(id)) else Ok(Summary(s, s.guests[id]))
  }

  /** Updating a guest: the document's uniqueness is checked only when it
      changes; then name, document and phone are overwritten. */
  function UpdateGuest(s: Store, id: nat, req: GuestRequest): (r: Result<(Store, GuestResponse)>)
    ensures id !in s.guests ==> r == Err(GuestNotFound(id))
    ensures id in s.guests && s.guests[id].document == req.document ==>
      (r.Ok? <==> FitsColumns(s.guests[id].(name := req.name, phone := req.phone)))
    ensures id in s.guests && s.guests[id].document != req.document && GuestQueries.ExistsByDocument(GuestRows(s), req.document) ==>
      r == Err(DocumentAlreadyRegistered(req.document))
    ensures r.Ok? ==>
      var (t, g) := r.value;
      && id in s.guests
      && t.guests == s.guests[id := s.guests[id].(name := req.name, document := req.document, phone := req.phone)]
      && t.stays == s.stays && t.nextGuestId == s.nextGuestId && t.nextStayId == s.nextStayId
      && g.id == s.guests[id].id && g.name == req.name && g.document == req.document && g.phone == req.phone
  {
    if id !in s.guests then Err(GuestNotFound(id))
    else
      var g := s.guests[id];
      if g.document != req.document && GuestQueries.ExistsByDocument(GuestRows(s), req.document) then
        Err(DocumentAlreadyRegistered(req.document))
      else
        var updated := g.(name := req.name, document := req.document, phone := req.phone);
        match UpdateGuestRow(s, id, updated)
        case Err(e) => Err(e)
        case Ok(t) => Ok((t, Summary(t, updated)))
  }

  /** A changed document is refused exactly when another guest has it. */
  lemma UpdateGuestEffects(s: Store, id: nat, req: GuestRequest)
    requires Valid(s) && id in s.guests && s.guests[id].document != req.document
    ensures UpdateGuest(s, id, req) == Err(DocumentAlreadyRegistered(req.document)) <==>
      exists k :: k in s.guests && k != id && s.guests[k].document == req.document
  {
    DocumentTaken(s, req.document);
    var updated := s.guests[id].(name := req.name, document := req.document, phone := req.phone);
    if !GuestQueries.ExistsByDocument(GuestRows(s), req.document) && !FitsColumns(updated) {
      assert GuestColumnsCheck(updated).Fail?;
    }
  }

  /** A successful update leaves the store valid: documents stay unique. */
  lemma UpdateGuestPreservesValid(s: Store, id: nat, req: GuestRequest)
    requires Valid(s)
    ensures UpdateGuest(s, id, req).Ok? ==> Valid(UpdateGuest(s, id, req).value.0)
  {
    var r := UpdateGuest(s, id, req);
    if r.Ok? {
      var updated := s.guests[id].(name := req.name, document := req.document, phone := req.phone);
      assert r.value.0 == s.(guests := s.guests[id := updated]);
      assert FitsColumns(updated);
      DocumentTaken(s, req.document);
      assert forall b :: b in s.guests && b != id ==> s.guests[b].document != req.document;
      ReplaceGuestKeepsValid(s, id, updated);
    }
  }

  /** Removing a guest deletes it and, by cascade, its stays. */
  function RemoveGuest(s: Store, id: nat): (r: Result<Store>)
    ensures r.Err? <==> id !in s.guests
    ensures r.Err? ==> r.error == GuestNotFound(id)
    ensures r.Ok? ==> r.value.guests == s.guests - {id}
    ensures r.Ok? ==> forall j :: j in r.value.stays <==> j in s.stays && !StayQueries.BelongsTo(s.stays[j], id)
  {
    if id !in s.guests then Err(GuestNotFound(id)) else Ok(DeleteGuest(s, id))
  }

  /** The cascade leaves no stay pointing at the removed guest, so the
      store stays valid; the remaining stays are unchanged. */
  lemma RemoveGuestPreservesValid(s: Store, id: nat)
    requires Valid(s)
    ensures RemoveGuest(s, id).Ok? ==>
      var t := RemoveGuest(s, id).value;
      && Valid(t) && ClosedStaysKept(s, t)
      && (forall j :: j in t.stays ==> t.stays[j] == s.stays[j])
  {}

  /** The responses for a list of guests, in the same order. */
  function Summaries(s: Store, gs: seq<Guest>): (r: seq<GuestResponse>)
    ensures |r| == |gs|
    ensures forall i :: 0 <= i < |gs| ==> r[i] == Summary(s, gs[i])
    ensures forall g :: Summary(s, g) in r <==> g in gs
    ensures Distinct(gs) ==> Distinct(r)
  {
    MapSeq(gs, g => Summary(s, g))
  }

  /** Every guest, with or without stays, ordered by name. */
  function ListGuests(s: Store, collation: string -> int): (r: seq<GuestResponse>)
    ensures forall g :: Summary(s, g) in r <==> g in GuestRows(s)
    ensures |r| == |GuestRows(s)|
    ensures forall i, j :: 0 <= i < j < |r| ==> collation(r[i].name) <= collation(r[j].name)
  {
    var sorted := GuestQueries.AllByName(GuestRows(s), collation);
    assert |sorted| == |GuestRows(s)| by {
      assert |multiset(sorted)| == |multiset(GuestRows(s))|;
    }
    Summaries(s, sorted)
  }

  /** Exactly the stored guests are listed, each once. */
  lemma ListGuestsHoldsEveryGuestOnce(s: Store, collation: string -> int)
    requires Valid(s)
    ensures Distinct(ListGuests(s, collation))
    ensures forall k :: k in s.guests <==> exists i :: 0 <= i < |ListGuests(s, collation)| && ListGuests(s, collation)[i].id == Some(k)
  {
    RowsOfValid(s);
    var sorted := GuestQueries.AllByName(GuestRows(s), collation);
    assert Summaries(s, sorted) == ListGuests(s, collation);
    SummariesListStoredIds(s, sorted);
  }

  /** When a list holds exactly the stored guests, its summaries carry
      exactly the stored ids. */
  lemma SummariesListStoredIds(s: Store, gs: seq<Guest>)
    requires IdsAssigned(s)
    requires forall g :: g in gs <==> exists k :: k in s.guests && s.guests[k] == g
    ensures var r := Summaries(s, gs);
      forall k :: k in s.guests <==> exists i :: 0 <= i < |r| && r[i].id == Some(k)
  {
    var r := Summaries(s, gs);
    forall k | k in s.guests
      ensures exists i :: 0 <= i < |r| && r[i].id == Some(k)
    {
      assert s.guests[k] in gs;
      var i :| 0 <= i < |gs| && gs[i] == s.guests[k];
      assert r[i].id == Some(k);
    }
    forall k | exists i :: 0 <= i < |r| && r[i].id == Some(k)
      ensures k in s.guests
    {
      var i :| 0 <= i < |r| && r[i].id == Some(k);
      assert gs[i] in gs;
    }
  }

  /** The search: every null filter restricts nothing. */
  function SearchGuests(s: Store, f: GuestFilters): (r: seq<GuestResponse>)
    ensures forall g :: Summary(s, g) in r <==> g in GuestRows(s) && GuestQueries.PassesFilters(g, f)
  {
    Summaries(s, GuestQueries.Search(GuestRows(s), f))
  }

  /** With no filter the search lists the whole table; the id order is the
      model's choice, since the query leaves the order open. */
  lemma SearchWithoutFiltersListsAll(s: Store)
    ensures SearchGuests(s, GuestFilters(None, None, None)) == Summaries(s, GuestRows(s))
  {
    GuestQueries.SearchWithoutFilters(GuestRows(s));
  }

  /** The guests with a finished stay, once each, ordered by name; this
      includes guests who have checked in again since. */
  function GuestsWhoLeft(s: Store, collation: string -> int): (r: seq<GuestResponse>)
    ensures forall g :: Summary(s, g) in r <==> g in GuestRows(s) && GuestQueries.HasLeft(StayRows(s), g)
    ensures Valid(s) ==> Distinct(r)
    ensures forall i, j :: 0 <= i < j < |r| ==> collation(r[i].name) <= collation(r[j].name)
  {
    assert Valid(s) ==> Distinct(GuestRows(s)) by {
      if Valid(s) {
        RowsOfValid(s);
      }
    }
    Summaries(s, GuestQueries.WhoLeft(GuestRows(s), StayRows(s), collation))
  }

  /** The guests in the hotel, once each, ordered by name; each one is
      reported as in the hotel. */
  function GuestsInHotel(s: Store, collation: string -> int): (r: seq<GuestResponse>)
    ensures forall g :: Summary(s, g) in r <==> g in GuestRows(s) && GuestQueries.IsInHotel(StayRows(s), g)
    ensures Valid(s) ==> Distinct(r)
    ensures forall i, j :: 0 <= i < j < |r| ==> collation(r[i].name) <= collation(r[j].name)
    ensures forall i :: 0 <= i < |r| ==> r[i].inHotel == Some(true)
  {
    assert Valid(s) ==> Distinct(GuestRows(s)) by {
      if Valid(s) {
        RowsOfValid(s);
      }
    }
    var present := GuestQueries.InHotel(GuestRows(s), StayRows(s), collation);
    InHotelReported(s, present);
    Summaries(s, present)
  }

  /** A guest with an open stay among the rows is reported in the hotel. */
  lemma InHotelReported(s: Store, gs: seq<Guest>)
    requires forall g :: g in gs ==> GuestQueries.IsInHotel(StayRows(s), g)
    ensures forall i :: 0 <= i < |gs| ==> Summary(s, gs[i]).inHotel == Some(true)
  {
    var rows := StayRows(s);
    forall i | 0 <= i < |gs|
      ensures Summary(s, gs[i]).inHotel == Some(true)
    {
      assert gs[i] in gs;
      var c :| c in rows && StayQueries.IsOpenStayOf(c, gs[i].id.value);
      var j :| 0 <= j < |rows| && rows[j] == c;
      assert StayQueries.HasOpenStay(rows, gs[i].id.value);
    }
  }
}

=== FILE: outcomes.dfy ===
/** Failure-carrying values shared by every module of the hotel model: the
    nullable reference (`Option`), the value-or-error result of a service call
    (`Result`), the pass-or-fail verdict of a validator (`Outcome`) and the
    typed error taxonomy that replaces the backend's exception classes. */
module Outcomes {

  /** A Java reference that may be null. */
  datatype Option<+T> = None | Some(value: T) {
    function GetOr(default: T): T {
      match this
      case Some(v) => v
      case None => default
    }
  }

  /** Why an operation was refused because of the state of a stay. */
  datatype StateProblem =
    | AlreadyFinished        // checkout of a stay whose exit is already set
    | UpdateOfFinished       // update of a stay whose exit is already set

  /** Why an argument was refused by a business-rule validator. */
  datatype ArgumentProblem =
    | EntryRequired
    | ExitBeforeEntry
    | EntryTooFarAhead
    | DocumentRequired
    | DocumentNotElevenDigits
    | DocumentAllSameDigit
    | PhoneRequired
    | PhoneNotTenOrElevenDigits

  /** The failures a service call can end with. Each one aborts the
      surrounding transaction, so the store is left as it was. */
  datatype Error =
    | GuestNotFound(guestId: nat)
    | StayNotFound(stayId: nat)
    | GuestAlreadyInHotel(guestName: string)
    | DocumentAlreadyRegistered(document: string)
    | IllegalState(state: StateProblem)
    | IllegalArgument(argument: ArgumentProblem)
    | NotNullViolation(column: string)
    | ValueTooLong(column: string)      // a text longer than its column
    | NumericOverflow(column: string)   // a number beyond its column's precision
    | NonUniqueResult

  datatype Result<+T> = Ok(value: T) | Err(error: Error)

  datatype Outcome = Pass | Fail(error: Error)
}

=== FILE: rates.dfy ===
/** The rate table and the billing rules that the stay entity and the
    standard value calculator share: which nights are billed and what each
    night costs. Money is counted in cents, so 120.00 is 12000. */
module Rates {
  import opened Calendar

  type Cents = nat

  const WeekdayRate: Cents := 12000
  const WeekendRate: Cents := 15000
  const WeekdayParking: Cents := 1500
  const WeekendParking: Cents := 2000

  /** Leaving after 16:30 costs one more night. */
  const CheckoutCutoff: TimeOfDay := TimeOf(16, 30)

  /** Saturday and Sunday are billed at the weekend rates. */
  predicate IsWeekend(epochDay: int) {
    DayOfWeekOf(epochDay) == Saturday || DayOfWeekOf(epochDay) == Sunday
  }

  /** The end time of day is strictly after the cutoff. */
  predicate ChargesExtraNight(end: DateTime) {
    end.time > CheckoutCutoff
  }

  /** The calendar-day difference, raised from 0 to 1, plus the extra night.
      A negative difference (an end date before the entry date) is kept. */
  function NumberOfNights(entry: DateTime, end: DateTime, extra: bool): int {
    var days := DaysBetween(entry.date, end.date);
    var atLeastOne := if days == 0 then 1 else days;
    if extra then atLeastOne + 1 else atLeastOne
  }

  /** The nights billed for a stay from `entry` to `end`. */
  function NightsBilled(entry: DateTime, end: DateTime): int {
    NumberOfNights(entry, end, ChargesExtraNight(end))
  }

  lemma NightsBilledRules(entry: DateTime, end: DateTime)
    ensures entry.date == end.date ==> NightsBilled(entry, end) == if ChargesExtraNight(end) then 2 else 1
    ensures entry.date < end.date ==>
      NightsBilled(entry, end) == end.date - entry.date + if ChargesExtraNight(end) then 1 else 0
    ensures end.date < entry.date ==> NightsBilled(entry, end) <= 0
    ensures entry.date <= end.date ==> NightsBilled(entry, end) >= 1
  {}

  /** The cutoff itself is not late: 16:30 exactly adds nothing, any later
      nanosecond adds exactly one night. */
  lemma CutoffIsExclusive(entry: DateTime, endDate: int, t: TimeOfDay)
    ensures NightsBilled(entry, DateTime(endDate, CheckoutCutoff)) == NumberOfNights(entry, DateTime(endDate, CheckoutCutoff), false)
    ensures t > CheckoutCutoff ==>
      NightsBilled(entry, DateTime(endDate, t)) == NightsBilled(entry, DateTime(endDate, CheckoutCutoff)) + 1
  {}

  function RoomRate(epochDay: int): Cents {
    if IsWeekend(epochDay) then WeekendRate else WeekdayRate
  }

  function ParkingRate(epochDay: int, vehicle: bool): Cents {
    if !vehicle then 0 else if IsWeekend(epochDay) then WeekendParking else WeekdayParking
  }

  /** The value of one night billed on `epochDay`: its rate plus, with a
      vehicle, the parking surcharge of the same kind of day. */
  function NightCharge(epochDay: int, vehicle: bool): (r: Cents)
    ensures IsWeekend(epochDay) ==> r == WeekendRate + (if vehicle then WeekendParking else 0)
    ensures !IsWeekend(epochDay) ==> r == WeekdayRate + (if vehicle then WeekdayParking else 0)
  {
    RoomRate(epochDay) + ParkingRate(epochDay, vehicle)
  }

  /** Rates of nights `start`, `start + 1`, ..., `start + n - 1`. */
  function RoomCharges(start: int, n: int): Cents
    decreases n
  {
    if n <= 0 then 0 else RoomCharges(start, n - 1) + RoomRate(start + n - 1)
  }

  /** Parking surcharges of the same nights. */
  function ParkingCharges(start: int, n: int, vehicle: bool): Cents
    decreases n
  {
    if n <= 0 then 0 else ParkingCharges(start, n - 1, vehicle) + ParkingRate(start + n - 1, vehicle)
  }

  /** The value of `n` nights from `start`, night by night; nothing when
      `n` is not positive. */
  function StayCharge(start: int, n: int, vehicle: bool): (r: Cents)
    ensures n <= 0 ==> r == 0
    ensures n > 0 ==> WeekdayRate * n <= r <= (WeekendRate + WeekendParking) * n
    ensures !vehicle && n > 0 ==> r <= WeekendRate * n
    decreases n
  {
    if n <= 0 then 0 else StayCharge(start, n - 1, vehicle) + NightCharge(start + n - 1, vehicle)
  }

  /** How many of the `n` nights from `start` fall on a weekend. */
  function WeekendNights(start: int, n: int): (w: nat)
    ensures n <= 0 ==> w == 0
    ensures n > 0 ==> w <= n
    decreases n
  {
    if n <= 0 then 0 else WeekendNights(start, n - 1) + if IsWeekend(start + n - 1) then 1 else 0
  }

  /** Billing night by night equals billing rates and parking separately. */
  lemma {:induction false} StayChargeSplits(start: int, n: int, vehicle: bool)
    ensures StayCharge(start, n, vehicle) == RoomCharges(start, n) + ParkingCharges(start, n, vehicle)
    decreases n
  {
    if n > 0 {
      StayChargeSplits(start, n - 1, vehicle);
    }
  }

  /** The value of a stay depends only on how many of its nights are
      weekend nights. */
  lemma {:induction false} StayChargeClosedForm(start: int, n: int, vehicle: bool)
    requires n > 0
    ensures var w := WeekendNights(start, n);
      StayCharge(start, n, vehicle)
        == WeekendRate * w + WeekdayRate * (n - w)
           + (if vehicle then WeekendParking * w + WeekdayParking * (n - w) else 0)
    decreases n
  {
    if n > 1 {
      StayChargeClosedForm(start, n - 1, vehicle);
    }
  }

  /** Any seven consecutive nights hold exactly one weekend. */
  lemma WeekHasTwoWeekendNights(start: int)
    ensures WeekendNights(start, 7) == 2
  {
    DayOfWeekAdvances(start);
    DayOfWeekAdvances(start + 1);
    DayOfWeekAdvances(start + 2);
    DayOfWeekAdvances(start + 3);
    DayOfWeekAdvances(start + 4);
    DayOfWeekAdvances(start + 5);
    assert WeekendNights(start, 7) == WeekendNights(start, 6) + (if IsWeekend(start + 6) then 1 else 0);
  }

  /** Counting weekend nights splits at any night. */
  lemma {:induction false} WeekendNightsAdd(start: int, a: nat, b: nat)
    ensures WeekendNights(start, a + b) == WeekendNights(start, a) + WeekendNights(start + a, b)
    decreases b
  {
    if b > 0 {
      WeekendNightsAdd(start, a, b - 1);
    }
  }

  /** Seven more nights are two more weekend nights, wherever they start. */
  lemma WeekendNightsPerWeek(start: int, n: nat)
    ensures WeekendNights(start, n + 7) == WeekendNights(start, n) + 2
  {
    var later := WeekendNights(start + n, 7);
    WeekendNightsAdd(start, n, 7);
    assert WeekendNights(start, n + 7) == WeekendNights(start, n) + later;
    WeekHasTwoWeekendNights(start + n);
    assert later == 2;
  }

  /** Whole weeks hold two weekend nights each. */
  lemma {:induction false} WeekendNightsOfWholeWeeks(start: int, weeks: nat)
    ensures WeekendNights(start, 7 * weeks) == 2 * weeks
    decreases weeks
  {
    if weeks > 0 {
      WeekendNightsOfWholeWeeks(start, weeks - 1);
      WeekendNightsPerWeek(start, 7 * (weeks - 1));
    }
  }
}

=== FILE: request_rules.dfy ===
/** The bean-validation constraints on guest request fields, checked
    before a guest request reaches the guest service: the name not blank
    and 2 to 255 UTF-16 code units long, the document exactly eleven digits, the
    phone exactly ten or eleven digits. */
module RequestRules {
  import opened Outcomes
  import opened Strings
  import opened GuestEntity
  import opened Dto
  import Validation

  /** `@Pattern`: the whole string matches `\\d{min,max}`. */
  predicate DigitsBetween(s: string, min: nat, max: nat) {
    AllDigits(s) && min <= |s| <= max
  }

  /** `@Size` on a Java `String` counts UTF-16 code units. */
  predicate ValidName(name: string) {
    !IsBlank(name) && 2 <= Utf16Length(name) <= 255
  }

  predicate ValidDocument(document: string) {
    !IsBlank(document) && DigitsBetween(document, 11, 11)
  }

  predicate ValidPhone(phone: string) {
    !IsBlank(phone) && DigitsBetween(phone, 10, 11)
  }

  predicate IsValid(req: GuestRequest) {
    ValidName(req.name) && ValidDocument(req.document) && ValidPhone(req.phone)
  }

  /** The guest a valid request describes fits the guest table's columns. */
  lemma ValidRequestFitsColumns(req: GuestRequest, id: Option<nat>)
    requires IsValid(req)
    ensures FitsColumns(Guest(id, req.name, req.document, req.phone))
  {}

  /** The request rules are stricter than the format validators: a valid
      request always passes the phone check, and passes the document check
      exactly when its document is not one digit repeated. */
  lemma {:induction false} ValidRequestPassesValidators(req: GuestRequest)
    requires IsValid(req)
    ensures Validation.PhoneFormat(Some(req.phone)) == Pass
    ensures Validation.DocumentFormat(Some(req.document)) == Pass <==> !Validation.RepeatsOneDigit(req.document)
  {
    DigitStringsAreFixed(req.phone);
    DigitStringsAreFixed(req.document);
  }

  /** A document with a separator in it passes the format validator
      whenever the bare digits do, but never the request rules, which allow
      no separators. */
  lemma PunctuatedDocumentOnlyPassesValidator(document: string, k: nat, c: char)
    requires ValidDocument(document) && !Validation.RepeatsOneDigit(document)
    requires k <= |document| && !IsDigit(c) && c > ' '
    ensures Validation.DocumentFormat(Some(document[..k] + [c] + document[k..])) == Pass
    ensures !ValidDocument(document[..k] + [c] + document[k..])
  {
    DigitStringsAreFixed(document);
    Validation.SeparatorsIgnored(document, k, c);
    assert (document[..k] + [c] + document[k..])[k] == c;
  }

  /** An empty name, the document "123" and the phone "123" are each
      refused. */
  lemma ShortFieldsRejected()
    ensures !ValidName("") && !ValidDocument("123") && !ValidPhone("123")
    ensures !IsValid(GuestRequest("", "123", "123"))
  {}

  /** The name size counts code units: one supplementary character is long
      enough, and 128 of them are too long although they fit the column. */
  lemma NameSizeCountsCodeUnits(c: char, name: string)
    requires IsSupplementary(c)
    requires |name| == 128 && forall i :: 0 <= i < |name| ==> name[i] == c
    ensures ValidName([c])
    ensures !ValidName(name) && |name| <= NameLength
  {
    assert [c][0] == c;
  }
}

=== FILE: stay_entity.dfy ===
/** A stay (check-in) as the entity that prices itself: the guest it
    belongs to, entry and exit date-times, the vehicle add-on and the stored
    total. A stay is active, the guest still in the hotel, while it has no
    exit. */
module StayEntity {
  import opened Outcomes
  import opened Calendar
  import opened Rates

  /** `id` and `guest` are null until the stay is saved or linked; two
      stays are the same entity when their ids are equal. */
  datatype Stay = Stay(
    id: Option<nat>,
    guest: Option<nat>,
    entry: Option<DateTime>,
    exit: Option<DateTime>,
    vehicle: bool,
    total: Option<Cents>)

  /** The three-argument constructor: no exit, no total, and a null vehicle
      flag read as false. */
  function NewStay(guest: Option<nat>, entry: Option<DateTime>, vehicle: Option<bool>): (c: Stay)
    ensures c.id.None? && c.exit.None? && c.total.None? && IsActive(c)
    ensures c.guest == guest && c.entry == entry
    ensures c.vehicle <==> vehicle == Some(true)
  {
    Stay(None, guest, entry, None, vehicle.GetOr(false), None)
  }

  /** The guest is still in the hotel. */
  predicate IsActive(c: Stay) {
    c.exit.None?
  }

  lemma ActiveExactlyWithoutExit(c: Stay, t: DateTime)
    ensures IsActive(c) <==> c.exit == None
    ensures !IsActive(c.(exit := Some(t)))
  {}

  /** The end used for billing: the exit, or the supplied "now" while the
      stay is still open. */
  function BillingEnd(c: Stay, now: DateTime): DateTime {
    if c.exit.Some? then c.exit.value else now
  }

  /** The value of a stay as of `now` and the stay with that value stored
      as its total. Without an entry the value is 0 and nothing is stored. */
  function TotalAsOf(c: Stay, now: DateTime): (r: (Cents, Stay))
    ensures c.entry.None? ==> r.0 == 0 && r.1 == c
    ensures c.entry.Some? ==> r.1 == c.(total := Some(r.0))
    ensures c.entry.Some? && BillingEnd(c, now).date < c.entry.value.date ==> r.0 == 0
    ensures c.entry.Some? && c.entry.value.date <= BillingEnd(c, now).date ==> r.0 >= WeekdayRate
  {
    if c.entry.None? then (0, c)
    else
      var entry := c.entry.value;
      var n := NightsBilled(entry, BillingEnd(c, now));
      StayChargeSplits(entry.date, n, c.vehicle);
      var value := RoomCharges(entry.date, n) + ParkingCharges(entry.date, n, c.vehicle);
      (value, c.(total := Some(value)))
  }

  /** Once the exit is set, the time the total is asked for is irrelevant. */
  lemma ClosedTotalIgnoresNow(c: Stay, now: DateTime, later: DateTime)
    requires c.exit.Some?
    ensures TotalAsOf(c, now) == TotalAsOf(c, later)
  {}

  /** The total computed night by night, keeping the room rates and the
      parking surcharges in two running sums. */
  method CalculateTotal(c: Stay, now: DateTime) returns (value: Cents, updated: Stay)
    ensures (value, updated) == TotalAsOf(c, now)
  {
    if c.entry.None? {
      return 0, c;
    }
    var entry := c.entry.value;
    var end := if c.exit.Some? then c.exit.value else now;
    var extra := ChargesExtraNight(end);
    var n := NumberOfNights(entry, end, extra);
    var rooms: Cents := 0;
    var parking: Cents := 0;
    var i := 0;
    while i < n
      invariant 0 <= i && (n > 0 ==> i <= n) && (n <= 0 ==> i == 0)
      invariant rooms == RoomCharges(entry.date, i)
      invariant parking == ParkingCharges(entry.date, i, c.vehicle)
    {
      var day := entry.date + i;
      if IsWeekend(day) {
        rooms := rooms + WeekendRate;
        if c.vehicle {
          parking := parking + WeekendParking;
        }
      } else {
        rooms := rooms + WeekdayRate;
        if c.vehicle {
          parking := parking + WeekdayParking;
        }
      }
      i := i + 1;
    }
    value := rooms + parking;
    updated := c.(total := Some(value));
  }

  /** Checkout: set the exit, then store the recomputed total. */
  function Checkout(c: Stay, exit: DateTime): (r: Stay)
    ensures r.exit == Some(exit) && !IsActive(r)
    ensures r.id == c.id && r.guest == c.guest && r.entry == c.entry && r.vehicle == c.vehicle
    ensures c.entry.None? ==> r.total == c.total
    ensures c.entry.Some? ==> r.total == Some(TotalAsOf(c.(exit := Some(exit)), exit).0)
  {
    TotalAsOf(c.(exit := Some(exit)), exit).1
  }
}

=== FILE: stay_mapper.dfy ===
/** Conversion between stay requests, stay entities and stay responses. */
module StayMapper {
  import opened Outcomes
  import opened Calendar
  import opened Rates
  import opened StayEntity
  import opened GuestEntity
  import opened Dto
  import GuestMapper
  import Calculator

  /** A new stay linked to `guest` with the request's dates and a null
      vehicle flag read as false; no total is computed, even with an exit. */
  function ToEntity(dto: Option<StayRequest>, guest: Option<nat>): (r: Option<Stay>)
    ensures r.None? <==> dto.None?
    ensures r.Some? ==> r.value.id.None? && r.value.total.None? && r.value.guest == guest
    ensures r.Some? ==> r.value.entry == dto.value.entry && r.value.exit == dto.value.exit
    ensures r.Some? ==> (r.value.vehicle <==> dto.value.vehicle == Some(true))
  {
    match dto
    case None => None
    case Some(d) => Some(Stay(None, guest, d.entry, d.exit, d.vehicle.GetOr(false), None))
  }

  /** The stay's fields, its guest in simple form and whether it is active.
      `guest` is the stay's own guest object: a stay that names a guest id
      comes with that guest, and a given guest carries the stay's link. */
  function ToResponse(entity: Option<Stay>, guest: Option<Guest>): (r: Option<StayResponse>)
    requires entity.Some? && entity.value.guest.Some? ==> guest.Some?
    requires entity.Some? && guest.Some? ==> guest.value.id == entity.value.guest
    ensures r.None? <==> entity.None?
    ensures r.Some? ==> (r.value.active <==> IsActive(entity.value))
    ensures r.Some? ==>
      && r.value.id == entity.value.id && r.value.entry == entity.value.entry
      && r.value.exit == entity.value.exit && r.value.vehicle == entity.value.vehicle
      && r.value.total == entity.value.total
    ensures r.Some? ==> r.value.guest == GuestMapper.ToSimpleResponse(guest)
  {
    match entity
    case None => None
    case Some(c) =>
      Some(StayResponse(c.id, GuestMapper.ToSimpleResponse(guest), c.entry, c.exit, c.vehicle, c.total, IsActive(c)))
  }

  /** Overwrites entry and flag (null read as false) and checks out when
      the request has an exit; a no-op when either side is null. */
  function UpdateFromRequest(entity: Option<Stay>, dto: Option<StayRequest>): (r: Option<Stay>)
    ensures entity.None? || dto.None? ==> r == entity
    ensures entity.Some? && dto.Some? ==> r.Some?
    ensures entity.Some? && dto.Some? ==>
      r.value.id == entity.value.id && r.value.guest == entity.value.guest
      && r.value.entry == dto.value.entry && (r.value.vehicle <==> dto.value.vehicle == Some(true))
    ensures entity.Some? && dto.Some? && dto.value.exit.None? ==>
      r.value.exit == entity.value.exit && r.value.total == entity.value.total
    ensures entity.Some? && dto.Some? && dto.value.exit.Some? ==>
      r.value.exit == dto.value.exit && !IsActive(r.value)
    ensures entity.Some? && dto.Some? && dto.value.exit.Some? && dto.value.entry.Some? ==>
      r.value.total == Some(Calculator.Value(dto.value.entry, dto.value.exit, r.value.vehicle, dto.value.exit.value))
    ensures entity.Some? && dto.Some? && dto.value.exit.Some? && dto.value.entry.None? ==>
      r.value.total == entity.value.total
  {
    if entity.None? || dto.None? then entity
    else
      var d := dto.value;
      var c := entity.value.(entry := d.entry, vehicle := d.vehicle.GetOr(false));
      if d.exit.Some? then
        Calculator.AgreesWithStayEntity(c.(exit := d.exit), d.exit.value);
        Some(Checkout(c, d.exit.value))
      else Some(c)
  }

  /** A stay mapped from a request carries no total; applying the same
      request to it as an update prices it exactly when the request has
      both dates. */
  lemma {:induction false} UpdatePricesWhatToEntityLeavesUnpriced(dto: StayRequest, guest: Option<nat>)
    ensures ToEntity(Some(dto), guest).value.total.None?
    ensures (UpdateFromRequest(ToEntity(Some(dto), guest), Some(dto)).value.total.Some?)
        <==> (dto.entry.Some? && dto.exit.Some?)
  {
    var c := ToEntity(Some(dto), guest).value;
    if dto.exit.Some? && dto.entry.None? {
      var updated := c.(entry := dto.entry, vehicle := dto.vehicle.GetOr(false));
      assert TotalAsOf(updated.(exit := dto.exit), dto.exit.value).1 == updated.(exit := dto.exit);
    }
  }
}

=== FILE: stay_queries.dfy ===
/** The stay repository's queries, read as filters, folds and orderings
    over the rows of the stay table. A stay belongs to a guest when its
    guest link holds that guest's id. */
module StayQueries {
  import opened Outcomes
  import opened Calendar
  import opened Rates
  import opened Collections
  import opened StayEntity

  predicate BelongsTo(c: Stay, guest: nat) {
    c.guest == Some(guest)
  }

  /** The guest's stay that is still open: the guest is in the hotel. */
  predicate IsOpenStayOf(c: Stay, guest: nat) {
    BelongsTo(c, guest) && IsActive(c)
  }

  /** The entry as an ordering key; the entry column is not nullable, so
      the fallback never applies to a stored stay. */
  function EntryInstant(c: Stay): int {
    if c.entry.Some? then Instant(c.entry.value) else 0
  }

  function ExitInstant(c: Stay): int {
    if c.exit.Some? then Instant(c.exit.value) else 0
  }

  /** The guest's stays, in table order. */
  function OfGuest(stays: seq<Stay>, guest: nat): (r: seq<Stay>)
    ensures forall c :: c in r <==> c in stays && BelongsTo(c, guest)
    ensures multiset(r) <= multiset(stays)
  {
    Filter(stays, c => BelongsTo(c, guest))
  }

  /** Stays of the guest ordered by entry, most recent first. */
  function StaysOfGuestNewestFirst(stays: seq<Stay>, guest: nat): (r: seq<Stay>)
    ensures multiset(r) == multiset(OfGuest(stays, guest))
    ensures forall c :: c in r <==> c in stays && BelongsTo(c, guest)
    ensures forall i, j :: 0 <= i < j < |r| ==> EntryInstant(r[j]) <= EntryInstant(r[i])
  {
    var r := SortBy(OfGuest(stays, guest), c => -EntryInstant(c));
    assert forall c :: c in r <==> c in multiset(r);
    r
  }

  function Open(stays: seq<Stay>): (r: seq<Stay>)
    ensures forall c :: c in r <==> c in stays && IsActive(c)
  {
    Filter(stays, IsActive)
  }

  function Closed(stays: seq<Stay>): (r: seq<Stay>)
    ensures forall c :: c in r <==> c in stays && !IsActive(c)
  {
    Filter(stays, c => !IsActive(c))
  }

  /** Stays without exit, ordered by entry ascending. */
  function ActiveStays(stays: seq<Stay>): (r: seq<Stay>)
    ensures multiset(r) == multiset(Open(stays))
    ensures forall c :: c in r <==> c in stays && IsActive(c)
    ensures forall i, j :: 0 <= i < j < |r| ==> EntryInstant(r[i]) <= EntryInstant(r[j])
  {
    var r := SortBy(Open(stays), c => EntryInstant(c));
    assert forall c :: c in r <==> c in multiset(r);
    r
  }

  /** Stays with an exit, ordered by exit, most recent first. */
  function FinishedStays(stays: seq<Stay>): (r: seq<Stay>)
    ensures multiset(r) == multiset(Closed(stays))
    ensures forall c :: c in r <==> c in stays && !IsActive(c)
    ensures forall i, j :: 0 <= i < j < |r| ==> ExitInstant(r[j]) <= ExitInstant(r[i])
  {
    var r := SortBy(Closed(stays), c => -ExitInstant(c));
    assert forall c :: c in r <==> c in multiset(r);
    r
  }

  /** Every stay is in exactly one of the two lists, as often as it is in
      the table. */
  lemma ActiveAndFinishedPartition(stays: seq<Stay>)
    ensures multiset(ActiveStays(stays)) + multiset(FinishedStays(stays)) == multiset(stays)
  {
    FilterPartitions(stays, IsActive, c => !IsActive(c));
  }

  /** The guest's open stays. */
  function OpenStaysOf(stays: seq<Stay>, guest: nat): (r: seq<Stay>)
    ensures forall c :: c in r <==> c in stays && IsOpenStayOf(c, guest)
    ensures multiset(r) <= multiset(stays)
  {
    Filter(stays, c => IsOpenStayOf(c, guest))
  }

  /** `COUNT` of the guest's open stays. */
  function CountOpen(stays: seq<Stay>, guest: nat): (n: nat)
    ensures n <= |stays|
    ensures n > 0 <==> exists i :: 0 <= i < |stays| && IsOpenStayOf(stays[i], guest)
  {
    var r := OpenStaysOf(stays, guest);
    assert |r| > 0 ==> r[0] in r;
    assert |multiset(r)| <= |multiset(stays)| by {
      assert multiset(stays) == multiset(r) + (multiset(stays) - multiset(r));
    }
    |r|
  }

  /** The guest is in the hotel. */
  predicate HasOpenStay(stays: seq<Stay>, guest: nat) {
    CountOpen(stays, guest) > 0
  }

  /** The single-result query for the guest's open stay: none, the one
      stay, or a failure when the rows hold more than one. */
  function OpenStayOf(stays: seq<Stay>, guest: nat): (r: Result<Option<Stay>>)
    ensures r == Ok(None) <==> !HasOpenStay(stays, guest)
    ensures r.Ok? && r.value.Some? ==> r.value.value in stays && IsOpenStayOf(r.value.value, guest)
    ensures r.Ok? && r.value.Some? ==> CountOpen(stays, guest) == 1
    ensures r.Err? <==> CountOpen(stays, guest) > 1
    ensures r.Err? ==> r.error == NonUniqueResult
  {
    var open := OpenStaysOf(stays, guest);
    if |open| == 0 then Ok(None)
    else if |open| == 1 then
      assert open[0] in open;
      Ok(Some(open[0]))
    else Err(NonUniqueResult)
  }

  /** Rows without repeats in which all the guest's open stays are one and
      the same stay never make the single-result query fail. */
  lemma OpenStayUnique(stays: seq<Stay>, guest: nat)
    requires Distinct(stays)
    requires forall i, j ::
      (0 <= i < |stays| && 0 <= j < |stays| && IsOpenStayOf(stays[i], guest) && IsOpenStayOf(stays[j], guest))
      ==> stays[i] == stays[j]
    ensures CountOpen(stays, guest) <= 1
    ensures OpenStayOf(stays, guest).Ok?
  {
    var open := OpenStaysOf(stays, guest);
    SubMultisetOfDistinct(stays, open);
    forall k | 0 <= k < |open|
      ensures open[k] == open[0]
    {
      assert open[k] in stays && open[0] in stays;
    }
    if |open| > 0 {
      ConstantCount(open, open[0]);
      DistinctCountsOnce(open, open[0]);
    }
  }

  /** What one stay adds to the guest's spending: its total when it has one. */
  function Spent(c: Stay, guest: nat): Cents {
    if BelongsTo(c, guest) && c.total.Some? then c.total.value else 0
  }

  /** `COALESCE(SUM(total), 0)` over the guest's stays with a total. */
  function TotalSpent(stays: seq<Stay>, guest: nat): (r: Cents)
    ensures (forall i :: 0 <= i < |stays| ==> Spent(stays[i], guest) == 0) ==> r == 0
    ensures forall i :: 0 <= i < |stays| ==> Spent(stays[i], guest) <= r
    decreases |stays|
  {
    if |stays| == 0 then 0
    else
      var rest := TotalSpent(stays[1..], guest);
      assert forall i :: 1 <= i < |stays| ==> stays[i] == stays[1..][i - 1];
      Spent(stays[0], guest) + rest
  }

  /** A single row adds exactly its own spending. */
  lemma TotalSpentOne(c: Stay, guest: nat)
    ensures TotalSpent([c], guest) == if BelongsTo(c, guest) && c.total.Some? then c.total.value else 0
  {
    assert [c][1..] == [];
  }

  /** Spending adds up over concatenated rows. */
  lemma {:induction false} TotalSpentAppend(a: seq<Stay>, b: seq<Stay>, guest: nat)
    ensures TotalSpent(a + b, guest) == TotalSpent(a, guest) + TotalSpent(b, guest)
    decreases |a|
  {
    if |a| == 0 {
      assert a + b == b;
    } else {
      assert (a + b)[1..] == a[1..] + b;
      TotalSpentAppend(a[1..], b, guest);
    }
  }

  /** Only the guest's own stays count towards its spending. */
  lemma {:induction false} TotalSpentOfOwnStays(stays: seq<Stay>, guest: nat)
    ensures TotalSpent(OfGuest(stays, guest), guest) == TotalSpent(stays, guest)
    decreases |stays|
  {
    if |stays| > 0 {
      TotalSpentOfOwnStays(stays[1..], guest);
      assert stays == [stays[0]] + stays[1..];
      if BelongsTo(stays[0], guest) {
        assert OfGuest(stays, guest) == [stays[0]] + OfGuest(stays[1..], guest);
        TotalSpentAppend([stays[0]], OfGuest(stays[1..], guest), guest);
      } else {
        assert OfGuest(stays, guest) == OfGuest(stays[1..], guest);
      }
    }
  }

  /** The guest's stays that carry a total. */
  predicate Priced(c: Stay, guest: nat) {
    BelongsTo(c, guest) && c.total.Some?
  }

  /** `ORDER BY exit DESC` as PostgreSQL sorts it: a null exit comes first. */
  predicate SortsNoLater(a: Stay, b: Stay) {
    a.exit.None? || (b.exit.Some? && ExitInstant(b) <= ExitInstant(a))
  }

  /** The first row of the guest's priced stays in that order. */
  function LatestPriced(stays: seq<Stay>, guest: nat): (r: Option<Stay>)
    ensures r.None? <==> forall i :: 0 <= i < |stays| ==> !Priced(stays[i], guest)
    ensures r.Some? ==> r.value in stays && Priced(r.value, guest)
    ensures r.Some? ==> forall i :: 0 <= i < |stays| && Priced(stays[i], guest) ==> SortsNoLater(r.value, stays[i])
    decreases |stays|
  {
    if |stays| == 0 then None
    else
      var rest := LatestPriced(stays[1..], guest);
      assert forall i :: 1 <= i < |stays| ==> stays[i] == stays[1..][i - 1];
      if Priced(stays[0], guest) && (rest.None? || SortsNoLater(stays[0], rest.value)) then Some(stays[0])
      else rest
  }

  /** The total of the guest's most recently finished priced stay, if any. */
  function LastStayValue(stays: seq<Stay>, guest: nat): (r: Option<Cents>)
    ensures r.None? <==> forall i :: 0 <= i < |stays| ==> !Priced(stays[i], guest)
    ensures r.Some? ==>
      exists c :: c in stays && Priced(c, guest) && c.total == r &&
        (forall i :: 0 <= i < |stays| && Priced(stays[i], guest) ==> SortsNoLater(c, stays[i]))
  {
    match LatestPriced(stays, guest)
    case None => None
    case Some(c) => c.total
  }

  /** The stays an inner join with the guest table keeps: those with a guest. */
  function Linked(stays: seq<Stay>): (r: seq<Stay>)
    ensures forall c :: c in r <==> c in stays && c.guest.Some?
    ensures multiset(r) <= multiset(stays)
  {
    Filter(stays, (c: Stay) => c.guest.Some?)
  }

  /** All stays with their guest, most recent entry first. */
  function AllNewestFirst(stays: seq<Stay>): (r: seq<Stay>)
    ensures multiset(r) == multiset(Linked(stays))
    ensures forall c :: c in r <==> c in stays && c.guest.Some?
    ensures forall i, j :: 0 <= i < j < |r| ==> EntryInstant(r[j]) <= EntryInstant(r[i])
  {
    var r := SortBy(Linked(stays), c => -EntryInstant(c));
    assert forall c :: c in r <==> c in multiset(r);
    r
  }
}

=== FILE: stay_service.dfy ===
/** The stay lifecycle service: check-in (finding or registering the guest
    by document), checkout, update and removal of stays, and the stay
    lists. A stay is open while it has no exit; a guest may hold at most one
    open stay. A failed call leaves the store as it was. The date rules of
    the business-rule validator are not applied on these paths. */
module StayService {
  import opened Outcomes
  import opened Calendar
  import opened Rates
  import opened Collections
  import opened StayEntity
  import opened GuestEntity
  import opened Dto
  import opened Store
  import StayQueries
  import GuestQueries
  import GuestService
  import Calculator

  /** The guest as the stay responses show it: its fields, no aggregates. */
  function GuestFields(g: Guest): (r: GuestResponse)
    ensures r.id == g.id && r.name == g.name && r.document == g.document && r.phone == g.phone
    ensures r.totalSpent.None? && r.lastStayValue.None? && r.inHotel.None?
  {
    GuestResponse(g.id, g.name, g.document, g.phone, None, None, None)
  }

  /** The stored guest a stay refers to. */
  function GuestOf(s: Store, c: Stay): (r: Option<Guest>)
    ensures r.Some? <==> c.guest.Some? && c.guest.value in s.guests
    ensures r.Some? ==> r.value == s.guests[c.guest.value]
  {
    if c.guest.Some? && c.guest.value in s.guests then Some(s.guests[c.guest.value]) else None
  }

  /** A stay as answered: its fields, its guest and whether it is open. */
  function Respond(c: Stay, g: Option<Guest>): (r: StayResponse)
    ensures r.id == c.id && r.entry == c.entry && r.exit == c.exit && r.vehicle == c.vehicle && r.total == c.total
    ensures r.active <==> IsActive(c)
    ensures g.Some? ==> r.guest == Some(GuestFields(g.value))
    ensures g.None? ==> r.guest.None?
  {
    var guest := if g.Some? then Some(GuestFields(g.value)) else None;
    StayResponse(c.id, guest, c.entry, c.exit, c.vehicle, c.total, IsActive(c))
  }

  /** The responses for a list of stays, in the same order. */
  function Responses(s: Store, cs: seq<Stay>): (r: seq<StayResponse>)
    ensures |r| == |cs|
    ensures forall i :: 0 <= i < |cs| ==> r[i] == Respond(cs[i], GuestOf(s, cs[i]))
    ensures forall i :: 0 <= i < |cs| ==>
      r[i].entry == cs[i].entry && r[i].exit == cs[i].exit && (r[i].active <==> IsActive(cs[i]))
  {
    MapSeq(cs, c => Respond(c, GuestOf(s, c)))
  }

  /** A date-time as an ordering key; an absent one sorts as 0. */
  function When(t: Option<DateTime>): int {
    if t.Some? then Instant(t.value) else 0
  }

  /** The guest a check-in is for: the one registered under the request's
      document, or a newly registered one. */
  function ObtainGuest(s: Store, req: GuestRequest): (r: Result<(Store, Guest)>)
    ensures r.Ok? ==> r.value.1.document == req.document
    ensures GuestQueries.FindByDocument(GuestRows(s), req.document).Some? ==>
      r.Ok? && r.value.0 == s && r.value.1 in GuestRows(s)
    ensures GuestQueries.FindByDocument(GuestRows(s), req.document).None? ==>
      r == GuestService.CreateGuestRow(s, req)
  {
    match GuestQueries.FindByDocument(GuestRows(s), req.document)
    case Some(g) => Ok((s, g))
    case None => GuestService.CreateGuestRow(s, req)
  }

  /** In a valid store the guest obtained is stored under its id; an
      existing guest is reused and nothing is written; otherwise exactly one
      guest is added. */
  lemma ObtainGuestEffects(s: Store, req: GuestRequest)
    requires Valid(s)
    ensures ObtainGuest(s, req).Ok? ==>
      var (t, g) := ObtainGuest(s, req).value;
      && Valid(t) && t.stays == s.stays && t.nextStayId == s.nextStayId
      && g.id.Some? && g.id.value in t.guests && t.guests[g.id.value] == g
      && (forall k :: k in s.guests ==> k in t.guests && t.guests[k] == s.guests[k])
    ensures forall k :: k in s.guests && s.guests[k].document == req.document ==>
      ObtainGuest(s, req) == Ok((s, s.guests[k]))
    ensures (forall k :: k in s.guests ==> s.guests[k].document != req.document) ==>
      ObtainGuest(s, req) == GuestService.CreateGuestRow(s, req)
  {
    RowsOfValid(s);
    GuestService.DocumentTaken(s, req.document);
    GuestQueries.ExistsIffFound(GuestRows(s), req.document);
    GuestService.CreateGuestEffects(s, req);
    match GuestQueries.FindByDocument(GuestRows(s), req.document)
    case Some(g) =>
      var k :| k in s.guests && s.guests[k] == g;
      assert forall j :: j in s.guests && s.guests[j].document == req.document ==> j == k;
    case None =>
  }

  /** The stay a check-in creates, checked out at once when the request
      has an exit. */
  function NewStayFor(g: Guest, req: StayRequest, vehicle: bool): (c: Stay)
    ensures c.id.None? && c.guest == g.id && c.entry == req.entry && c.exit == req.exit && c.vehicle == vehicle
    ensures req.exit.None? ==> c.total.None? && IsActive(c)
    ensures req.exit.Some? && req.entry.Some? ==>
      c.total == Some(Calculator.Value(req.entry, req.exit, vehicle, req.exit.value))
  {
    var c := Stay(None, g.id, req.entry, req.exit, vehicle, None);
    if req.exit.Some? then
      Calculator.AgreesWithStayEntity(c.(exit := req.exit), req.exit.value);
      Checkout(c, req.exit.value)
    else c
  }

  /** Check-in: obtain the guest, refuse if it is in the hotel, save the
      new stay. A null vehicle flag or a null entry is refused by the
      table's not-null columns. */
  function CheckIn(s: Store, req: StayRequest): (r: Result<(Store, StayResponse)>)
    ensures r.Ok? ==> req.vehicle.Some? && req.entry.Some?
    ensures r.Ok? ==>
      var (u, resp) := r.value;
      && resp.entry == req.entry && resp.exit == req.exit && resp.vehicle == req.vehicle.value
      && (resp.active <==> req.exit.None?)
      && resp.id == Some(s.nextStayId) && s.nextStayId in u.stays
      && resp.guest.Some? && resp.guest.value.document == req.guest.document
  {
    match ObtainGuest(s, req.guest)
    case Err(e) => Err(e)
    case Ok((t, g)) =>
      if g.id.Some? && StayQueries.HasOpenStay(StayRows(t), g.id.value) then Err(GuestAlreadyInHotel(g.name))
      else if req.vehicle.None? then Err(NotNullViolation("adicional_veiculo"))
      else
        match InsertStay(t, NewStayFor(g, req, req.vehicle.value))
        case Err(e) => Err(e)
        case Ok((u, saved)) => Ok((u, Respond(saved, Some(g))))
  }

  /** A guest with an open stay cannot check in again, and nothing is
      saved. */
  lemma CheckInRefusedWhileInHotel(s: Store, req: StayRequest, k: nat)
    requires Valid(s) && k in s.guests && s.guests[k].document == req.guest.document
    requires exists j :: j in s.stays && StayQueries.IsOpenStayOf(s.stays[j], k)
    ensures CheckIn(s, req) == Err(GuestAlreadyInHotel(s.guests[k].name))
  {
    ObtainGuestEffects(s, req.guest);
    HasOpenStayInStore(s, k);
  }

  /** A registered guest without an open stay is never refused as already
      in the hotel. */
  lemma CheckInAdmittedWhenNotInHotel(s: Store, req: StayRequest, k: nat)
    requires Valid(s) && k in s.guests && s.guests[k].document == req.guest.document
    requires forall j :: j in s.stays ==> !StayQueries.IsOpenStayOf(s.stays[j], k)
    ensures CheckIn(s, req).Err? ==> !CheckIn(s, req).error.GuestAlreadyInHotel?
  {
    ObtainGuestEffects(s, req.guest);
    assert ObtainGuest(s, req.guest) == Ok((s, s.guests[k]));
    HasOpenStayInStore(s, k);
  }

  /** A successful check-in keeps the store valid and adds exactly one
      stay under the next id; no existing stay changes. */
  lemma CheckInPreservesValid(s: Store, req: StayRequest)
    requires Valid(s)
    ensures CheckIn(s, req).Ok? ==>
      var u := CheckIn(s, req).value.0;
      && Valid(u) && ClosedStaysUnchanged(s, u)
      && s.nextStayId !in s.stays && u.stays == s.stays[s.nextStayId := u.stays[s.nextStayId]]
  {
    ObtainGuestEffects(s, req.guest);
    if CheckIn(s, req).Ok? {
      var (t, g) := ObtainGuest(s, req.guest).value;
      var c := NewStayFor(g, req, req.vehicle.value);
      assert CheckIn(s, req).value.0 == InsertStay(t, c).value.0;
      HasOpenStayInStore(t, g.id.value);
      InsertStayKeepsValid(t, c);
      InsertStayAddsOneRow(t, c);
    }
  }

  /** The stay a successful check-in adds belongs to the guest holding the
      request's document and has the request's entry, exit and flag; with
      an exit it is priced as of that exit. */
  lemma CheckInCreatesStay(s: Store, req: StayRequest)
    requires Valid(s)
    ensures CheckIn(s, req).Ok? ==>
      var c := CheckIn(s, req).value.0.stays[s.nextStayId];
      var u := CheckIn(s, req).value.0;
      && c.guest.Some? && c.guest.value in u.guests && u.guests[c.guest.value].document == req.guest.document
      && c.entry == req.entry && c.exit == req.exit && c.vehicle == req.vehicle.value
      && (req.exit.Some? ==> c.total == Some(Calculator.Value(req.entry, req.exit, req.vehicle.value, req.exit.value)))
  {
    ObtainGuestEffects(s, req.guest);
    if CheckIn(s, req).Ok? {
      var (t, g) := ObtainGuest(s, req.guest).value;
      var c := NewStayFor(g, req, req.vehicle.value);
      var (u, saved) := InsertStay(t, c).value;
      assert CheckIn(s, req).value.0 == u;
    }
  }

  /** Checking in an existing guest registers no one. */
  lemma CheckInReusesGuest(s: Store, req: StayRequest, k: nat)
    requires Valid(s) && k in s.guests && s.guests[k].document == req.guest.document
    ensures CheckIn(s, req).Ok? ==> CheckIn(s, req).value.0.guests == s.guests
  {
    ObtainGuestEffects(s, req.guest);
  }

  /** Checkout: the stay must exist and be open; its exit is set and its
      total recomputed and stored. */
  function CheckOut(s: Store, id: nat, exit: DateTime): (r: Result<(Store, StayResponse)>)
    ensures id !in s.stays ==> r == Err(StayNotFound(id))
    ensures id in s.stays && !IsActive(s.stays[id]) ==> r == Err(IllegalState(AlreadyFinished))
    ensures r.Ok? ==>
      var (u, resp) := r.value;
      && id in s.stays && IsActive(s.stays[id])
      && u == s.(stays := s.stays[id := Checkout(s.stays[id], exit)])
      && !resp.active && resp.exit == Some(exit)
  {
    if id !in s.stays then Err(StayNotFound(id))
    else
      var c := s.stays[id];
      if !IsActive(c) then Err(IllegalState(AlreadyFinished))
      else
        var closed := Checkout(c, exit);
        match UpdateStayRow(s, id, closed)
        case Err(e) => Err(e)
        case Ok(u) => Ok((u, Respond(closed, GuestOf(u, closed))))
  }

  /** Checking out an open stay succeeds unless the total overflows its
      column, and that overflow is the only way it can fail. */
  lemma CheckOutSucceedsUnlessOverflow(s: Store, id: nat, exit: DateTime)
    requires Valid(s) && id in s.stays && IsActive(s.stays[id])
    ensures var c := s.stays[id];
      CheckOut(s, id, exit).Ok? <==> Calculator.Value(c.entry, Some(exit), c.vehicle, exit) < TotalLimit
    ensures CheckOut(s, id, exit).Err? ==> CheckOut(s, id, exit).error == NumericOverflow("valor_total")
  {
    var c := s.stays[id];
    Calculator.AgreesWithStayEntity(c.(exit := Some(exit)), exit);
  }

  /** The largest value of the entity's 32-bit night counter. */
  const MaxNightCounter: int := 0x7FFF_FFFF

  /** The nights that a 32-bit counter cannot reach are priced far beyond
      `numeric(10,2)`, so such a checkout is refused. */
  lemma CheckOutOverflowsWhereCounterWraps(s: Store, id: nat, exit: DateTime)
    requires Valid(s) && id in s.stays && IsActive(s.stays[id])
    requires NightsBilled(s.stays[id].entry.value, exit) > MaxNightCounter
    ensures CheckOut(s, id, exit) == Err(NumericOverflow("valor_total"))
  {
    var c := s.stays[id];
    var n := NightsBilled(c.entry.value, exit);
    assert Calculator.Value(c.entry, Some(exit), c.vehicle, exit) == StayCharge(c.entry.value.date, n, c.vehicle);
    assert StayCharge(c.entry.value.date, n, c.vehicle) >= WeekdayRate * n;
    CheckOutSucceedsUnlessOverflow(s, id, exit);
  }

  /** A successful checkout keeps the store valid and changes no closed
      stay. */
  lemma CheckOutPreservesValid(s: Store, id: nat, exit: DateTime)
    requires Valid(s) && id in s.stays && IsActive(s.stays[id])
    ensures CheckOut(s, id, exit).Ok? ==>
      var u := CheckOut(s, id, exit).value.0;
      Valid(u) && ClosedStaysUnchanged(s, u)
  {
    var r := CheckOut(s, id, exit);
    if r.Ok? {
      var closed := Checkout(s.stays[id], exit);
      assert r.value.0.stays == s.stays[id := closed] && r.value.0.guests == s.guests;
      assert TotalFits(closed);
      ReplaceStayKeepsValid(s, id, closed);
    }
  }

  /** A successful checkout prices the stay as of its exit and leaves every
      other stay as it was; afterwards the guest is no longer in the hotel. */
  lemma CheckOutEffects(s: Store, id: nat, exit: DateTime)
    requires Valid(s) && id in s.stays && IsActive(s.stays[id])
    ensures CheckOut(s, id, exit).Ok? ==>
      var u := CheckOut(s, id, exit).value.0;
      var c := s.stays[id];
      && u.guests == s.guests
      && u.stays.Keys == s.stays.Keys && (forall j :: j in s.stays && j != id ==> u.stays[j] == s.stays[j])
      && u.stays[id].exit == Some(exit)
      && u.stays[id].total == Some(Calculator.Value(c.entry, Some(exit), c.vehicle, exit))
      && (forall j :: j in u.stays ==> !StayQueries.IsOpenStayOf(u.stays[j], c.guest.value))
  {
    var r := CheckOut(s, id, exit);
    if r.Ok? {
      var c := s.stays[id];
      var closed := Checkout(c, exit);
      var u := r.value.0;
      assert u.stays == s.stays[id := closed] && u.guests == s.guests;
      Calculator.AgreesWithStayEntity(c.(exit := Some(exit)), exit);
      ClosedGuestHasNoOpenStay(s, id, closed, u);
    }
  }

  /** Replacing a guest's open stay by a closed one leaves that guest with
      no open stay, since a valid store holds at most one. */
  lemma ClosedGuestHasNoOpenStay(s: Store, id: nat, closed: Stay, u: Store)
    requires Valid(s) && id in s.stays && IsActive(s.stays[id])
    requires closed.guest == s.stays[id].guest && !IsActive(closed)
    requires u.stays == s.stays[id := closed]
    ensures forall j :: j in u.stays ==> !StayQueries.IsOpenStayOf(u.stays[j], closed.guest.value)
  {
    assert forall j :: j in s.stays && j != id ==> !(IsActive(s.stays[j]) && s.stays[j].guest == closed.guest);
  }

  /** A guest that has just checked out may check in again: the new
      check-in is not refused as already in the hotel. */
  lemma CheckInAfterCheckOut(s: Store, id: nat, exit: DateTime, req: StayRequest)
    requires Valid(s) && id in s.stays && IsActive(s.stays[id]) && CheckOut(s, id, exit).Ok?
    requires req.guest.document == s.guests[s.stays[id].guest.value].document
    ensures var u := CheckOut(s, id, exit).value.0;
      CheckIn(u, req).Err? ==> !CheckIn(u, req).error.GuestAlreadyInHotel?
  {
    CheckOutPreservesValid(s, id, exit);
    CheckOutEffects(s, id, exit);
    var u := CheckOut(s, id, exit).value.0;
    var k := s.stays[id].guest.value;
    assert u.guests == s.guests;
    CheckInAdmittedWhenNotInHotel(u, req, k);
  }

  /** Without the date validator an exit dated before the entry is
      accepted, and the stay is priced at 0. */
  lemma CheckOutBeforeEntryPricesZero(s: Store, id: nat, exit: DateTime)
    requires Valid(s) && id in s.stays && IsActive(s.stays[id])
    requires exit.date < s.stays[id].entry.value.date
    ensures CheckOut(s, id, exit).Ok?
    ensures CheckOut(s, id, exit).value.0.stays[id].total == Some(0)
  {
    CheckOutSucceedsUnlessOverflow(s, id, exit);
    CheckOutEffects(s, id, exit);
  }

  /** Update: the stay must exist and be open; entry and flag are
      overwritten, and the stay is checked out only when an exit is given. */
  function UpdateStay(s: Store, id: nat, req: StayRequest): (r: Result<(Store, StayResponse)>)
    ensures id !in s.stays ==> r == Err(StayNotFound(id))
    ensures id in s.stays && !IsActive(s.stays[id]) ==> r == Err(IllegalState(UpdateOfFinished))
    ensures r.Ok? ==>
      var (u, resp) := r.value;
      && id in s.stays && IsActive(s.stays[id]) && req.vehicle.Some? && req.entry.Some?
      && u.guests == s.guests && u.stays.Keys == s.stays.Keys
      && (forall j :: j in s.stays && j != id ==> u.stays[j] == s.stays[j])
      && u.stays[id].id == s.stays[id].id && u.stays[id].guest == s.stays[id].guest
      && u.stays[id].entry == req.entry && u.stays[id].vehicle == req.vehicle.value
      && (req.exit.None? ==> IsActive(u.stays[id]) && u.stays[id].total == s.stays[id].total)
      && (req.exit.Some? ==>
            u.stays[id].exit == req.exit
            && u.stays[id].total == Some(Calculator.Value(req.entry, req.exit, req.vehicle.value, req.exit.value)))
      && resp.entry == req.entry && (resp.active <==> req.exit.None?)
  {
    if id !in s.stays then Err(StayNotFound(id))
    else
      var c := s.stays[id];
      if !IsActive(c) then Err(IllegalState(UpdateOfFinished))
      else if req.vehicle.None? then Err(NotNullViolation("adicional_veiculo"))
      else
        var edited := c.(entry := req.entry, vehicle := req.vehicle.value);
        var updated := if req.exit.Some? then
          Calculator.AgreesWithStayEntity(edited.(exit := req.exit), req.exit.value);
          Checkout(edited, req.exit.value)
        else edited;
        match UpdateStayRow(s, id, updated)
        case Err(e) => Err(e)
        case Ok(u) => Ok((u, Respond(updated, GuestOf(u, updated))))
  }

  /** A successful update keeps the store valid and changes no closed
      stay. */
  lemma UpdateStayPreservesValid(s: Store, id: nat, req: StayRequest)
    requires Valid(s)
    ensures UpdateStay(s, id, req).Ok? ==>
      var u := UpdateStay(s, id, req).value.0;
      Valid(u) && ClosedStaysUnchanged(s, u)
  {
    if UpdateStay(s, id, req).Ok? {
      var c := s.stays[id];
      var edited := c.(entry := req.entry, vehicle := req.vehicle.value);
      var updated := if req.exit.Some? then Checkout(edited, req.exit.value) else edited;
      assert UpdateStay(s, id, req).value.0 == s.(stays := s.stays[id := updated]);
      ReplaceStayKeepsValid(s, id, updated);
    }
  }

  /** Removal deletes the stay. */
  function RemoveStay(s: Store, id: nat): (r: Result<Store>)
    ensures r.Err? <==> id !in s.stays
    ensures r.Err? ==> r.error == StayNotFound(id)
    ensures r.Ok? ==> r.value.stays == s.stays - {id} && r.value.guests == s.guests
  {
    if id !in s.stays then Err(StayNotFound(id)) else Ok(DeleteStay(s, id))
  }

  lemma RemoveStayPreservesValid(s: Store, id: nat)
    requires Valid(s)
    ensures RemoveStay(s, id).Ok? ==> Valid(RemoveStay(s, id).value) && ClosedStaysKept(s, RemoveStay(s, id).value)
  {}

  /** Reading a stay by id. */
  function FindStay(s: Store, id: nat): (r: Result<StayResponse>)
    ensures r.Err? <==> id !in s.stays
    ensures r.Err? ==> r.error == StayNotFound(id)
    ensures r.Ok? ==> r.value.id == s.stays[id].id && (r.value.active <==> IsActive(s.stays[id]))
    ensures r.Ok? ==> var c := s.stays[id];
      r.value.entry == c.entry && r.value.exit == c.exit && r.value.vehicle == c.vehicle && r.value.total == c.total
    ensures r.Ok? ==> var c := s.stays[id];
      c.guest.Some? && c.guest.value in s.guests ==> r.value.guest == Some(GuestFields(s.guests[c.guest.value]))
    ensures r.Ok? && Valid(s) ==> r.value.guest.Some? && r.value.guest.value.id == s.stays[id].guest
  {
    if id !in s.stays then Err(StayNotFound(id)) else Ok(Respond(s.stays[id], GuestOf(s, s.stays[id])))
  }

  /** The stays of a guest, newest entry first; an unknown guest id fails
      before any stay is read. */
  function StaysOfGuest(s: Store, guest: nat): (r: Result<seq<StayResponse>>)
    ensures r.Err? <==> guest !in s.guests
    ensures r.Err? ==> r.error == GuestNotFound(guest)
    ensures r.Ok? ==> forall i, j :: 0 <= i < j < |r.value| ==> When(r.value[j].entry) <= When(r.value[i].entry)
    ensures r.Ok? ==> forall i :: 0 <= i < |r.value| ==> r.value[i].guest == Some(GuestFields(s.guests[guest]))
  {
    if guest !in s.guests then Err(GuestNotFound(guest))
    else
      var cs := StayQueries.StaysOfGuestNewestFirst(StayRows(s), guest);
      assert forall i :: 0 <= i < |cs| ==> cs[i] in cs && StayQueries.EntryInstant(cs[i]) == When(cs[i].entry);
      Ok(Responses(s, cs))
  }

  /** The per-guest list holds every stay of the guest, once each. */
  lemma StaysOfGuestListsEveryStay(s: Store, guest: nat)
    requires Valid(s) && guest in s.guests
    ensures forall j :: j in s.stays && StayQueries.BelongsTo(s.stays[j], guest) <==>
      exists i :: 0 <= i < |StaysOfGuest(s, guest).value| && StaysOfGuest(s, guest).value[i].id == Some(j)
    ensures |StaysOfGuest(s, guest).value| == |StayQueries.OfGuest(StayRows(s), guest)|
  {
    RowsOfValid(s);
    var rows := StayRows(s);
    var cs := StayQueries.StaysOfGuestNewestFirst(rows, guest);
    var r := StaysOfGuest(s, guest).value;
    assert r == Responses(s, cs);
    assert |cs| == |StayQueries.OfGuest(rows, guest)| by {
      assert |multiset(cs)| == |multiset(StayQueries.OfGuest(rows, guest))|;
    }
    OwnListed(s, guest);
  }

  lemma OwnListed(s: Store, guest: nat)
    requires IdsAssigned(s)
    ensures var r := Responses(s, StayQueries.StaysOfGuestNewestFirst(StayRows(s), guest));
      forall j :: j in s.stays && StayQueries.BelongsTo(s.stays[j], guest) <==> exists i :: 0 <= i < |r| && r[i].id == Some(j)
  {
    StayRowsOfAssigned(s);
    ResponsesListSelected(s, StayQueries.StaysOfGuestNewestFirst(StayRows(s), guest), c => StayQueries.BelongsTo(c, guest));
  }

  /** When a list holds exactly the stored stays that `keep` selects, its
      responses carry exactly the ids of those stays. */
  lemma ResponsesListSelected(s: Store, cs: seq<Stay>, keep: Stay -> bool)
    requires IdsAssigned(s)
    requires forall c :: c in cs <==> (exists k :: k in s.stays && s.stays[k] == c) && keep(c)
    ensures var r := Responses(s, cs);
      forall j :: j in s.stays && keep(s.stays[j]) <==> exists i :: 0 <= i < |r| && r[i].id == Some(j)
  {
    var r := Responses(s, cs);
    forall j | j in s.stays && keep(s.stays[j])
      ensures exists i :: 0 <= i < |r| && r[i].id == Some(j)
    {
      assert s.stays[j] in cs;
      var i :| 0 <= i < |cs| && cs[i] == s.stays[j];
      assert r[i].id == Some(j);
    }
    forall j | exists i :: 0 <= i < |r| && r[i].id == Some(j)
      ensures j in s.stays && keep(s.stays[j])
    {
      var i :| 0 <= i < |r| && r[i].id == Some(j);
      assert cs[i] in cs;
      var k :| k in s.stays && s.stays[k] == cs[i];
    }
  }

  /** With ids assigned, a row is in the stay table exactly when it is stored. */
  lemma StayRowsOfAssigned(s: Store)
    requires IdsAssigned(s)
    ensures forall c :: c in StayRows(s) <==> exists k :: k in s.stays && s.stays[k] == c
  {
    assert forall k :: k in s.stays ==> k < s.nextStayId;
  }

  lemma AllListed(s: Store)
    ensures var r := Responses(s, StayQueries.AllNewestFirst(StayRows(s)));
      Valid(s) ==> forall j :: j in s.stays <==> exists i :: 0 <= i < |r| && r[i].id == Some(j)
  {
    if Valid(s) {
      var cs := StayQueries.AllNewestFirst(StayRows(s));
      StayRowsOfAssigned(s);
      ResponsesListSelected(s, cs, (c: Stay) => c.guest.Some?);
    }
  }

  lemma ActiveListed(s: Store)
    ensures var r := Responses(s, StayQueries.ActiveStays(StayRows(s)));
      IdsAssigned(s) ==> forall j :: j in s.stays && IsActive(s.stays[j]) <==> exists i :: 0 <= i < |r| && r[i].id == Some(j)
  {
    if IdsAssigned(s) {
      StayRowsOfAssigned(s);
      ResponsesListSelected(s, StayQueries.ActiveStays(StayRows(s)), IsActive);
    }
  }

  lemma FinishedListed(s: Store)
    ensures var r := Responses(s, StayQueries.FinishedStays(StayRows(s)));
      IdsAssigned(s) ==> forall j :: j in s.stays && !IsActive(s.stays[j]) <==> exists i :: 0 <= i < |r| && r[i].id == Some(j)
  {
    if IdsAssigned(s) {
      StayRowsOfAssigned(s);
      ResponsesListSelected(s, StayQueries.FinishedStays(StayRows(s)), (c: Stay) => !IsActive(c));
    }
  }

  /** Every stay with its guest, newest entry first. */
  function ListAll(s: Store): (r: seq<StayResponse>)
    ensures forall i, j :: 0 <= i < j < |r| ==> When(r[j].entry) <= When(r[i].entry)
    ensures Valid(s) ==> |r| == |StayRows(s)|
    ensures Valid(s) ==> forall j :: j in s.stays <==> exists i :: 0 <= i < |r| && r[i].id == Some(j)
  {
    var cs := StayQueries.AllNewestFirst(StayRows(s));
    AllListed(s);
    assert forall i :: 0 <= i < |cs| ==> StayQueries.EntryInstant(cs[i]) == When(cs[i].entry);
    assert Valid(s) ==> |cs| == |StayRows(s)| by {
      if Valid(s) {
        RowsOfValid(s);
        AllRowsLinked(s);
        assert |multiset(cs)| == |multiset(StayRows(s))|;
      }
    }
    Responses(s, cs)
  }

  /** In a valid store the inner join with the guest table drops no stay. */
  lemma AllRowsLinked(s: Store)
    requires Valid(s)
    ensures StayQueries.Linked(StayRows(s)) == StayRows(s)
  {
    RowsOfValid(s);
    LinkedKeepsAll(StayRows(s));
  }

  lemma {:induction false} LinkedKeepsAll(cs: seq<Stay>)
    requires forall c :: c in cs ==> c.guest.Some?
    ensures StayQueries.Linked(cs) == cs
    decreases |cs|
  {
    if |cs| > 0 {
      assert cs[0] in cs;
      assert forall c :: c in cs[1..] ==> c in cs;
      LinkedKeepsAll(cs[1..]);
      assert cs == [cs[0]] + cs[1..];
    }
  }

  /** The open stays, oldest entry first. */
  function ListActive(s: Store): (r: seq<StayResponse>)
    ensures forall i :: 0 <= i < |r| ==> r[i].active && r[i].exit.None?
    ensures forall i, j :: 0 <= i < j < |r| ==> When(r[i].entry) <= When(r[j].entry)
    ensures IdsAssigned(s) ==> forall j :: j in s.stays && IsActive(s.stays[j]) <==> exists i :: 0 <= i < |r| && r[i].id == Some(j)
  {
    var cs := StayQueries.ActiveStays(StayRows(s));
    OpenResponses(s, cs);
    ActiveListed(s);
    Responses(s, cs)
  }

  lemma OpenResponses(s: Store, cs: seq<Stay>)
    requires forall c :: c in cs ==> IsActive(c)
    requires forall i, j :: 0 <= i < j < |cs| ==> StayQueries.EntryInstant(cs[i]) <= StayQueries.EntryInstant(cs[j])
    ensures var r := Responses(s, cs);
      && (forall i :: 0 <= i < |r| ==> r[i].active && r[i].exit.None?)
      && (forall i, j :: 0 <= i < j < |r| ==> When(r[i].entry) <= When(r[j].entry))
  {
    assert forall i :: 0 <= i < |cs| ==> cs[i] in cs;
  }

  /** The finished stays, latest exit first. */
  function ListFinished(s: Store): (r: seq<StayResponse>)
    ensures forall i :: 0 <= i < |r| ==> !r[i].active && r[i].exit.Some?
    ensures forall i, j :: 0 <= i < j < |r| ==> When(r[j].exit) <= When(r[i].exit)
    ensures IdsAssigned(s) ==> forall j :: j in s.stays && !IsActive(s.stays[j]) <==> exists i :: 0 <= i < |r| && r[i].id == Some(j)
  {
    var cs := StayQueries.FinishedStays(StayRows(s));
    ClosedResponses(s, cs);
    FinishedListed(s);
    Responses(s, cs)
  }

  lemma ClosedResponses(s: Store, cs: seq<Stay>)
    requires forall c :: c in cs ==> !IsActive(c)
    requires forall i, j :: 0 <= i < j < |cs| ==> StayQueries.ExitInstant(cs[j]) <= StayQueries.ExitInstant(cs[i])
    ensures var r := Responses(s, cs);
      && (forall i :: 0 <= i < |r| ==> !r[i].active && r[i].exit.Some?)
      && (forall i, j :: 0 <= i < j < |r| ==> When(r[j].exit) <= When(r[i].exit))
  {
    assert forall i :: 0 <= i < |cs| ==> cs[i] in cs;
  }

  /** Every stored stay is in exactly one of the two lists. */
  lemma ActiveAndFinishedCoverAll(s: Store)
    ensures |ListActive(s)| + |ListFinished(s)| == |StayRows(s)|
  {
    StayQueries.ActiveAndFinishedPartition(StayRows(s));
    var a := StayQueries.ActiveStays(StayRows(s));
    var f := StayQueries.FinishedStays(StayRows(s));
    assert |multiset(a) + multiset(f)| == |multiset(StayRows(s))|;
  }
}

=== FILE: store.dfy ===
/** The database both services work on: the guest table and the stay
    table as maps from generated id to row, with the next id of each
    identity column. The invariant `Valid` collects what the schema and the
    services together keep true of every committed state. */
module Store {
  import opened Outcomes
  import opened Rates
  import opened Collections
  import opened StayEntity
  import opened GuestEntity
  import StayQueries

  datatype Store = Store(guests: map<nat, Guest>, stays: map<nat, Stay>, nextGuestId: nat, nextStayId: nat)

  const Empty: Store := Store(map[], map[], 0, 0)

  /** `numeric(10, 2)`: a total must stay below 10^8, that is 10^10 cents. */
  const TotalLimit: nat := 10_000_000_000

  /** The guest table's rows in id order. */
  function GuestRows(s: Store): seq<Guest> {
    Rows(s.guests, s.nextGuestId)
  }

  /** The stay table's rows in id order. */
  function StayRows(s: Store): seq<Stay> {
    Rows(s.stays, s.nextStayId)
  }

  /** Every row carries the id it is stored under, below the next id. */
  predicate IdsAssigned(s: Store) {
    && (forall k :: k in s.guests ==> k < s.nextGuestId && s.guests[k].id == Some(k))
    && (forall k :: k in s.stays ==> k < s.nextStayId && s.stays[k].id == Some(k))
  }

  /** Every stay refers to a stored guest (`hospede_id` is a non-null
      foreign key) and has an entry (`data_entrada` is not null). */
  predicate StaysLinked(s: Store) {
    forall k :: k in s.stays ==> s.stays[k].guest.Some? && s.stays[k].guest.value in s.guests && s.stays[k].entry.Some?
  }

  /** A stay has a total exactly when it has an exit: totals are only ever
      stored by a checkout. */
  predicate PricedExactlyWhenClosed(s: Store) {
    forall k :: k in s.stays ==> (s.stays[k].total.Some? <==> s.stays[k].exit.Some?)
  }

  predicate TotalFits(c: Stay) {
    c.total.None? || c.total.value < TotalLimit
  }

  /** Every stored value fits its column. */
  predicate ColumnsRespected(s: Store) {
    && (forall k :: k in s.guests ==> FitsColumns(s.guests[k]))
    && (forall k :: k in s.stays ==> TotalFits(s.stays[k]))
  }

  /** No two guests share a document. */
  predicate DocumentsUnique(s: Store) {
    forall a, b :: a in s.guests && b in s.guests && s.guests[a].document == s.guests[b].document ==> a == b
  }

  /** A guest has at most one open stay. */
  predicate AtMostOneOpenStay(s: Store) {
    forall a, b ::
      (a in s.stays && b in s.stays && IsActive(s.stays[a]) && IsActive(s.stays[b])
       && s.stays[a].guest == s.stays[b].guest) ==> a == b
  }

  predicate Valid(s: Store) {
    && IdsAssigned(s)
    && StaysLinked(s)
    && PricedExactlyWhenClosed(s)
    && ColumnsRespected(s)
    && DocumentsUnique(s)
    && AtMostOneOpenStay(s)
  }

  lemma EmptyIsValid()
    ensures Valid(Empty)
    ensures GuestRows(Empty) == [] && StayRows(Empty) == []
  {}

  /** No stay is reopened or changed once it is closed; it can only be
      deleted. */
  predicate ClosedStaysKept(before: Store, after: Store) {
    forall k :: k in before.stays && before.stays[k].exit.Some? && k in after.stays ==> after.stays[k] == before.stays[k]
  }

  /** Nothing is deleted and no closed stay changes. */
  predicate ClosedStaysUnchanged(before: Store, after: Store) {
    && before.stays.Keys <= after.stays.Keys
    && ClosedStaysKept(before, after)
  }

  /** The check the guest table's columns make when a row is written. */
  function GuestColumnsCheck(g: Guest): (r: Outcome)
    ensures r == Pass <==> FitsColumns(g)
    ensures r.Fail? ==> r.error in {ValueTooLong("nome"), ValueTooLong("documento"), ValueTooLong("telefone")}
  {
    if |g.name| > NameLength then Fail(ValueTooLong("nome"))
    else if |g.document| > DocumentLength then Fail(ValueTooLong("documento"))
    else if |g.phone| > PhoneLength then Fail(ValueTooLong("telefone"))
    else Pass
  }

  /** The check the stay table's columns make when a row is written. */
  function StayColumnsCheck(c: Stay): (r: Outcome)
    ensures r == Pass <==> c.entry.Some? && TotalFits(c)
    ensures c.entry.None? ==> r == Fail(NotNullViolation("data_entrada"))
    ensures c.entry.Some? && !TotalFits(c) ==> r == Fail(NumericOverflow("valor_total"))
  {
    if c.entry.None? then Fail(NotNullViolation("data_entrada"))
    else if !TotalFits(c) then Fail(NumericOverflow("valor_total"))
    else Pass
  }

  /** Saving a new guest: the next identity value becomes its id. */
  function InsertGuest(s: Store, g: Guest): (r: Result<(Store, Guest)>)
    ensures r.Err? <==> !FitsColumns(g)
    ensures r.Err? ==> GuestColumnsCheck(g) == Fail(r.error)
    ensures r.Ok? ==>
      var (t, saved) := r.value;
      && saved == g.(id := Some(s.nextGuestId))
      && t.guests == s.guests[s.nextGuestId := saved] && t.nextGuestId == s.nextGuestId + 1
      && t.stays == s.stays && t.nextStayId == s.nextStayId
  {
    match GuestColumnsCheck(g)
    case Fail(e) => Err(e)
    case Pass =>
      var saved := g.(id := Some(s.nextGuestId));
      Ok((s.(guests := s.guests[s.nextGuestId := saved], nextGuestId := s.nextGuestId + 1), saved))
  }

  /** Saving a guest that was read from row `k`. */
  function UpdateGuestRow(s: Store, k: nat, g: Guest): (r: Result<Store>)
    requires k in s.guests
    ensures r.Err? <==> !FitsColumns(g)
    ensures r.Err? ==> GuestColumnsCheck(g) == Fail(r.error)
    ensures r.Ok? ==> r.value == s.(guests := s.guests[k := g])
  {
    match GuestColumnsCheck(g)
    case Fail(e) => Err(e)
    case Pass => Ok(s.(guests := s.guests[k := g]))
  }

  /** Saving a new stay: the next identity value becomes its id. */
  function InsertStay(s: Store, c: Stay): (r: Result<(Store, Stay)>)
    ensures r.Err? <==> !(c.entry.Some? && TotalFits(c))
    ensures r.Err? ==> StayColumnsCheck(c) == Fail(r.error)
    ensures r.Ok? ==>
      var (t, saved) := r.value;
      && saved == c.(id := Some(s.nextStayId))
      && t.stays == s.stays[s.nextStayId := saved] && t.nextStayId == s.nextStayId + 1
      && t.guests == s.guests && t.nextGuestId == s.nextGuestId
  {
    match StayColumnsCheck(c)
    case Fail(e) => Err(e)
    case Pass =>
      var saved := c.(id := Some(s.nextStayId));
      Ok((s.(stays := s.stays[s.nextStayId := saved], nextStayId := s.nextStayId + 1), saved))
  }

  /** Saving a stay that was read from row `k`. */
  function UpdateStayRow(s: Store, k: nat, c: Stay): (r: Result<Store>)
    requires k in s.stays
    ensures r.Err? <==> !(c.entry.Some? && TotalFits(c))
    ensures r.Err? ==> StayColumnsCheck(c) == Fail(r.error)
    ensures r.Ok? ==> r.value == s.(stays := s.stays[k := c])
  {
    match StayColumnsCheck(c)
    case Fail(e) => Err(e)
    case Pass => Ok(s.(stays := s.stays[k := c]))
  }

  /** Deleting guest `k` cascades to its stays. */
  function DeleteGuest(s: Store, k: nat): (t: Store)
    ensures t.guests == s.guests - {k}
    ensures forall j :: j in t.stays <==> j in s.stays && s.stays[j].guest != Some(k)
    ensures forall j :: j in t.stays ==> t.stays[j] == s.stays[j]
    ensures t.nextGuestId == s.nextGuestId && t.nextStayId == s.nextStayId
  {
    var kept := map j | j in s.stays && s.stays[j].guest != Some(k) :: s.stays[j];
    s.(guests := s.guests - {k}, stays := kept)
  }

  function DeleteStay(s: Store, k: nat): (t: Store)
    ensures t.stays == s.stays - {k} && t.guests == s.guests
    ensures t.nextGuestId == s.nextGuestId && t.nextStayId == s.nextStayId
  {
    s.(stays := s.stays - {k})
  }

  /** Adding a guest under the next id, fitting its columns and with a
      document no stored guest has, keeps the store valid. */
  lemma AddGuestKeepsValid(s: Store, g: Guest)
    requires Valid(s) && g.id == Some(s.nextGuestId) && FitsColumns(g)
    requires forall b :: b in s.guests ==> s.guests[b].document != g.document
    ensures s.nextGuestId !in s.guests
    ensures Valid(s.(guests := s.guests[s.nextGuestId := g], nextGuestId := s.nextGuestId + 1))
  {
    assert forall k :: k in s.guests ==> k < s.nextGuestId;
    AddGuestKeepsIdsAndLinks(s, g);
    AddGuestKeepsColumnsAndDocuments(s, g);
  }

  lemma AddGuestKeepsIdsAndLinks(s: Store, g: Guest)
    requires IdsAssigned(s) && StaysLinked(s) && g.id == Some(s.nextGuestId)
    ensures var t := s.(guests := s.guests[s.nextGuestId := g], nextGuestId := s.nextGuestId + 1);
      IdsAssigned(t) && StaysLinked(t)
  {
  }

  lemma AddGuestKeepsColumnsAndDocuments(s: Store, g: Guest)
    requires ColumnsRespected(s) && DocumentsUnique(s) && FitsColumns(g)
    requires IdsAssigned(s)
    requires forall b :: b in s.guests ==> s.guests[b].document != g.document
    ensures var t := s.(guests := s.guests[s.nextGuestId := g], nextGuestId := s.nextGuestId + 1);
      ColumnsRespected(t) && DocumentsUnique(t)
  {
    assert forall k :: k in s.guests ==> k < s.nextGuestId;
  }

  /** Overwriting a guest's row, keeping its id, fitting its columns and
      with a document no other guest has, keeps the store valid. */
  lemma ReplaceGuestKeepsValid(s: Store, k: nat, g: Guest)
    requires Valid(s) && k in s.guests && g.id == Some(k) && FitsColumns(g)
    requires forall b :: b in s.guests && b != k ==> s.guests[b].document != g.document
    ensures Valid(s.(guests := s.guests[k := g]))
  {
    ReplaceGuestKeepsIdsAndLinks(s, k, g);
    ReplaceGuestKeepsColumnsAndDocuments(s, k, g);
  }

  lemma ReplaceGuestKeepsIdsAndLinks(s: Store, k: nat, g: Guest)
    requires IdsAssigned(s) && StaysLinked(s) && k in s.guests && g.id == Some(k)
    ensures IdsAssigned(s.(guests := s.guests[k := g])) && StaysLinked(s.(guests := s.guests[k := g]))
  {
  }

  lemma ReplaceGuestKeepsColumnsAndDocuments(s: Store, k: nat, g: Guest)
    requires ColumnsRespected(s) && DocumentsUnique(s) && FitsColumns(g)
    requires forall b :: b in s.guests && b != k ==> s.guests[b].document != g.document
    ensures ColumnsRespected(s.(guests := s.guests[k := g])) && DocumentsUnique(s.(guests := s.guests[k := g]))
  {
  }

  /** Replacing a stay by one with the same id and guest, a stored entry,
      a fitting total that is present exactly when the exit is, and that
      is open only if the old one was, keeps the store valid. */
  lemma ReplaceStayKeepsValid(s: Store, k: nat, c: Stay)
    requires Valid(s) && k in s.stays
    requires c.id == s.stays[k].id && c.guest == s.stays[k].guest
    requires c.entry.Some? && TotalFits(c) && (c.total.Some? <==> c.exit.Some?)
    requires IsActive(c) ==> IsActive(s.stays[k])
    ensures Valid(s.(stays := s.stays[k := c]))
  {
    ReplaceKeepsIdsAndLinks(s, k, c);
    ReplaceKeepsPricesAndColumns(s, k, c);
    ReplaceKeepsOneOpenStay(s, k, c);
  }

  lemma ReplaceKeepsIdsAndLinks(s: Store, k: nat, c: Stay)
    requires IdsAssigned(s) && StaysLinked(s) && k in s.stays
    requires c.id == s.stays[k].id && c.guest == s.stays[k].guest && c.entry.Some?
    ensures IdsAssigned(s.(stays := s.stays[k := c])) && StaysLinked(s.(stays := s.stays[k := c]))
  {
  }

  lemma ReplaceKeepsPricesAndColumns(s: Store, k: nat, c: Stay)
    requires PricedExactlyWhenClosed(s) && ColumnsRespected(s)
    requires TotalFits(c) && (c.total.Some? <==> c.exit.Some?)
    ensures PricedExactlyWhenClosed(s.(stays := s.stays[k := c])) && ColumnsRespected(s.(stays := s.stays[k := c]))
  {
  }

  lemma ReplaceKeepsOneOpenStay(s: Store, k: nat, c: Stay)
    requires AtMostOneOpenStay(s) && k in s.stays
    requires c.guest == s.stays[k].guest && (IsActive(c) ==> IsActive(s.stays[k]))
    ensures AtMostOneOpenStay(s.(stays := s.stays[k := c]))
  {
    var t := s.(stays := s.stays[k := c]);
    forall a, b | a in t.stays && b in t.stays && IsActive(t.stays[a]) && IsActive(t.stays[b]) && t.stays[a].guest == t.stays[b].guest
      ensures a == b
    {
      assert IsActive(s.stays[a]) && IsActive(s.stays[b]) && s.stays[a].guest == s.stays[b].guest;
    }
  }

  /** Adding a stay under the next id, linked to a stored guest, with an
      entry, a fitting total present exactly when the exit is, and open only
      when its guest has no open stay, keeps the store valid. */
  lemma AddStayKeepsValid(s: Store, c: Stay)
    requires Valid(s) && c.id == Some(s.nextStayId)
    requires c.guest.Some? && c.guest.value in s.guests
    requires c.entry.Some? && TotalFits(c) && (c.total.Some? <==> c.exit.Some?)
    requires IsActive(c) ==> forall j :: j in s.stays ==> !(IsActive(s.stays[j]) && s.stays[j].guest == c.guest)
    ensures s.nextStayId !in s.stays
    ensures Valid(s.(stays := s.stays[s.nextStayId := c], nextStayId := s.nextStayId + 1))
  {
    var n := s.nextStayId;
    assert forall k :: k in s.stays ==> k < n;
    var t := s.(stays := s.stays[n := c], nextStayId := n + 1);
    assert t.guests == s.guests;
    AddKeepsIdsAndLinks(s, c);
    AddKeepsPricesAndColumns(s, c);
    AddKeepsOneOpenStay(s, c);
  }

  lemma AddKeepsIdsAndLinks(s: Store, c: Stay)
    requires IdsAssigned(s) && StaysLinked(s) && c.id == Some(s.nextStayId)
    requires c.guest.Some? && c.guest.value in s.guests && c.entry.Some?
    ensures var t := s.(stays := s.stays[s.nextStayId := c], nextStayId := s.nextStayId + 1);
      IdsAssigned(t) && StaysLinked(t)
  {
    assert forall k :: k in s.stays ==> k < s.nextStayId;
  }

  lemma AddKeepsPricesAndColumns(s: Store, c: Stay)
    requires PricedExactlyWhenClosed(s) && ColumnsRespected(s)
    requires TotalFits(c) && (c.total.Some? <==> c.exit.Some?)
    ensures var t := s.(stays := s.stays[s.nextStayId := c], nextStayId := s.nextStayId + 1);
      PricedExactlyWhenClosed(t) && ColumnsRespected(t)
  {
  }

  lemma AddKeepsOneOpenStay(s: Store, c: Stay)
    requires AtMostOneOpenStay(s) && s.nextStayId !in s.stays
    requires IsActive(c) ==> forall j :: j in s.stays ==> !(IsActive(s.stays[j]) && s.stays[j].guest == c.guest)
    ensures AtMostOneOpenStay(s.(stays := s.stays[s.nextStayId := c], nextStayId := s.nextStayId + 1))
  {
    var n := s.nextStayId;
    var t := s.(stays := s.stays[n := c], nextStayId := n + 1);
    forall a, b | a in t.stays && b in t.stays && IsActive(t.stays[a]) && IsActive(t.stays[b]) && t.stays[a].guest == t.stays[b].guest
      ensures a == b
    {
      if a != n && b != n {
        assert IsActive(s.stays[a]) && IsActive(s.stays[b]) && s.stays[a].guest == s.stays[b].guest;
      }
    }
  }

  /** Saving a new stay that satisfies the conditions of `AddStayKeepsValid`
      apart from the ones the save itself checks keeps the store valid. */
  lemma InsertStayKeepsValid(s: Store, c: Stay)
    requires Valid(s)
    requires c.guest.Some? && c.guest.value in s.guests
    requires c.total.Some? <==> c.exit.Some?
    requires IsActive(c) ==> forall j :: j in s.stays ==> !(IsActive(s.stays[j]) && s.stays[j].guest == c.guest)
    ensures InsertStay(s, c).Ok? ==> Valid(InsertStay(s, c).value.0)
  {
    if InsertStay(s, c).Ok? {
      AddStayKeepsValid(s, c.(id := Some(s.nextStayId)));
    }
  }

  /** Saving a new stay adds exactly that row and changes no existing one. */
  lemma InsertStayAddsOneRow(s: Store, c: Stay)
    requires IdsAssigned(s)
    ensures InsertStay(s, c).Ok? ==>
      var u := InsertStay(s, c).value.0;
      && ClosedStaysUnchanged(s, u)
      && s.nextStayId !in s.stays && u.stays == s.stays[s.nextStayId := u.stays[s.nextStayId]]
  {
    assert forall k :: k in s.stays ==> k != s.nextStayId;
  }

  /** The rows of a valid store are distinct, and a row is in the table
      exactly when it is stored under its own id. */
  lemma RowsOfValid(s: Store)
    requires Valid(s)
    ensures Distinct(GuestRows(s)) && Distinct(StayRows(s))
    ensures forall g :: g in GuestRows(s) <==> exists k :: k in s.guests && s.guests[k] == g
    ensures forall c :: c in StayRows(s) <==> exists k :: k in s.stays && s.stays[k] == c
  {
    RowsDistinct(s.guests, s.nextGuestId, (g: Guest) => g.id.GetOr(0));
    RowsDistinct(s.stays, s.nextStayId, (c: Stay) => c.id.GetOr(0));
  }

  /** The in-hotel query over the rows agrees with the stay map. */
  lemma HasOpenStayInStore(s: Store, guest: nat)
    requires Valid(s)
    ensures StayQueries.HasOpenStay(StayRows(s), guest) <==>
      exists k :: k in s.stays && StayQueries.IsOpenStayOf(s.stays[k], guest)
  {
    RowsOfValid(s);
    var rows := StayRows(s);
    if exists k :: k in s.stays && StayQueries.IsOpenStayOf(s.stays[k], guest) {
      var k :| k in s.stays && StayQueries.IsOpenStayOf(s.stays[k], guest);
      assert s.stays[k] in rows;
      var i :| 0 <= i < |rows| && rows[i] == s.stays[k];
    }
  }

  /** In a valid store the single-result open-stay query never fails. */
  lemma OpenStayQueryNeverFails(s: Store, guest: nat)
    requires Valid(s)
    ensures StayQueries.OpenStayOf(StayRows(s), guest).Ok?
  {
    RowsOfValid(s);
    var rows := StayRows(s);
    forall i, j | 0 <= i < |rows| && 0 <= j < |rows|
      && StayQueries.IsOpenStayOf(rows[i], guest) && StayQueries.IsOpenStayOf(rows[j], guest)
      ensures rows[i] == rows[j]
    {
      assert rows[i] in rows && rows[j] in rows;
      var a :| a in s.stays && s.stays[a] == rows[i];
      var b :| b in s.stays && s.stays[b] == rows[j];
    }
    StayQueries.OpenStayUnique(rows, guest);
  }

  /** No stored stay belongs to an id that no guest has. */
  lemma NoStaysOfUnknownGuest(s: Store, guest: nat)
    requires Valid(s) && guest !in s.guests
    ensures forall c :: c in StayRows(s) ==> !StayQueries.BelongsTo(c, guest)
  {
    RowsOfValid(s);
  }
}

=== FILE: strings.dfy ===
/** The pieces of `java.lang.String`, `java.util.regex` and SQL string
    matching that the validators and the guest search rely on. Characters
    are compared as code points; case folding covers ASCII letters only. */
module Strings {

  /** Java regex `\d` without the Unicode flag: an ASCII digit. */
  predicate IsDigit(c: char) {
    '0' <= c <= '9'
  }

  predicate AllDigits(s: string) {
    forall i :: 0 <= i < |s| ==> IsDigit(s[i])
  }

  /** `s.replaceAll("\\D", "")`: the digits of `s`, in order. */
  function StripNonDigits(s: string): (r: string)
    ensures AllDigits(r)
    ensures |r| <= |s|
    ensures forall c :: c in r <==> c in s && IsDigit(c)
  {
    if |s| == 0 then ""
    else if IsDigit(s[0]) then [s[0]] + StripNonDigits(s[1..])
    else StripNonDigits(s[1..])
  }

  /** Stripping keeps a string that is only digits, and changes every other
      string; so stripping twice is stripping once. */
  lemma {:induction false} StripNonDigitsFixesExactlyDigitStrings(s: string)
    ensures StripNonDigits(s) == s <==> AllDigits(s)
    ensures StripNonDigits(StripNonDigits(s)) == StripNonDigits(s)
  {
    if |s| > 0 {
      StripNonDigitsFixesExactlyDigitStrings(s[1..]);
      if !IsDigit(s[0]) {
        assert |StripNonDigits(s)| < |s|;
      }
    }
    if AllDigits(StripNonDigits(s)) {
      DigitStringsAreFixed(StripNonDigits(s));
    }
  }

  /** Stripping works piecewise. */
  lemma {:induction false} StripConcat(a: string, b: string)
    ensures StripNonDigits(a + b) == StripNonDigits(a) + StripNonDigits(b)
    decreases |a|
  {
    if |a| == 0 {
      assert a + b == b;
    } else {
      assert (a + b)[0] == a[0];
      assert (a + b)[1..] == a[1..] + b;
      StripConcat(a[1..], b);
    }
  }

  lemma {:induction false} DigitStringsAreFixed(s: string)
    requires AllDigits(s)
    ensures StripNonDigits(s) == s
  {
    if |s| > 0 {
      DigitStringsAreFixed(s[1..]);
    }
  }

  /** `s.trim().isEmpty()`: `trim` drops every leading and trailing
      character up to U+0020, so a string is blank when it has no other. */
  predicate IsBlank(s: string) {
    forall i :: 0 <= i < |s| ==> s[i] <= ' '
  }

  /** A character outside the Basic Multilingual Plane is a surrogate pair
      in a Java `String`. */
  predicate IsSupplementary(c: char) {
    c as int > 0xFFFF
  }

  /** `String.length()`: the number of UTF-16 code units, two for each
      supplementary character and one for every other. */
  function Utf16Length(s: string): (n: nat)
    ensures |s| <= n <= 2 * |s|
    ensures n == |s| <==> forall i :: 0 <= i < |s| ==> !IsSupplementary(s[i])
    ensures n == 2 * |s| <==> forall i :: 0 <= i < |s| ==> IsSupplementary(s[i])
  {
    if |s| == 0 then 0
    else
      var n := Utf16Length(s[1..]) + if IsSupplementary(s[0]) then 2 else 1;
      assert forall i :: 1 <= i < |s| ==> s[i] == s[1..][i - 1];
      n
  }

  /** Code units add up over concatenation. */
  lemma {:induction false} Utf16LengthConcat(a: string, b: string)
    ensures Utf16Length(a + b) == Utf16Length(a) + Utf16Length(b)
    decreases |a|
  {
    if |a| == 0 {
      assert a + b == b;
    } else {
      assert (a + b)[0] == a[0];
      assert (a + b)[1..] == a[1..] + b;
      Utf16LengthConcat(a[1..], b);
    }
  }

  /** `LOWER` restricted to ASCII letters. */
  function ToLowerChar(c: char): (r: char)
    ensures !('A' <= r <= 'Z')
    ensures !('A' <= c <= 'Z') ==> r == c
  {
    if 'A' <= c <= 'Z' then (c as int + 32) as char else c
  }

  function ToLower(s: string): (r: string)
    ensures |r| == |s|
    ensures forall i :: 0 <= i < |s| ==> r[i] == ToLowerChar(s[i])
  {
    seq(|s|, i requires 0 <= i < |s| => ToLowerChar(s[i]))
  }

  /** SQL `s LIKE p` (no escape character): `%` matches any run of
      characters, `_` exactly one character, anything else itself. */
  predicate Like(s: string, p: string)
    decreases |s| + |p|
  {
    if |p| == 0 then |s| == 0
    else if p[0] == '%' then Like(s, p[1..]) || (|s| > 0 && Like(s[1..], p))
    else |s| > 0 && (p[0] == '_' || p[0] == s[0]) && Like(s[1..], p[1..])
  }

  /** A pattern without wildcards. */
  predicate IsLiteral(p: string) {
    forall i :: 0 <= i < |p| ==> p[i] != '%' && p[i] != '_'
  }

  predicate IsPrefix(p: string, s: string) {
    |p| <= |s| && s[..|p|] == p
  }

  /** `p` occurs somewhere inside `s`. */
  predicate Contains(s: string, p: string) {
    exists i :: 0 <= i <= |s| && IsPrefix(p, s[i..])
  }

  /** A literal followed by `%` matches exactly the strings it begins. */
  lemma {:induction false} LikeLiteralThenAny(s: string, p: string)
    requires IsLiteral(p)
    ensures Like(s, p + "%") <==> IsPrefix(p, s)
    decreases |p|
  {
    if |p| == 0 {
      assert p + "%" == "%";
      AnyMatchesPercent(s);
    } else {
      assert (p + "%")[0] == p[0];
      assert (p + "%")[1..] == p[1..] + "%";
      if |s| > 0 {
        LikeLiteralThenAny(s[1..], p[1..]);
        assert IsPrefix(p, s) <==> s[0] == p[0] && IsPrefix(p[1..], s[1..]);
      }
    }
  }

  lemma {:induction false} AnyMatchesPercent(s: string)
    ensures Like(s, "%")
    decreases |s|
  {
    assert "%"[1..] == "";
    if |s| > 0 {
      AnyMatchesPercent(s[1..]);
    }
  }

  /** `%literal%` matches exactly the strings that contain the literal:
      the name filter of the guest search is a substring test when the
      search text has no wildcard characters. */
  lemma {:induction false} LikeSubstring(s: string, p: string)
    requires IsLiteral(p)
    ensures Like(s, "%" + p + "%") <==> Contains(s, p)
    decreases |s|
  {
    var q := "%" + p + "%";
    assert q[0] == '%' && q[1..] == p + "%";
    LikeLiteralThenAny(s, p);
    assert IsPrefix(p, s[0..]) <==> IsPrefix(p, s) by { assert s[0..] == s; }
    if |s| > 0 {
      LikeSubstring(s[1..], p);
      assert Contains(s, p) <==> IsPrefix(p, s) || Contains(s[1..], p) by {
        forall i | 1 <= i <= |s|
          ensures s[i..] == s[1..][i - 1..]
        {}
        if Contains(s, p) {
          var i :| 0 <= i <= |s| && IsPrefix(p, s[i..]);
          if i > 0 {
            assert IsPrefix(p, s[1..][i - 1..]);
          }
        }
        if Contains(s[1..], p) {
          var j :| 0 <= j <= |s[1..]| && IsPrefix(p, s[1..][j..]);
          assert IsPrefix(p, s[j + 1..]);
        }
      }
    } else {
      assert Contains(s, p) <==> IsPrefix(p, s) by {
        if Contains(s, p) {
          var i :| 0 <= i <= |s| && IsPrefix(p, s[i..]);
          assert i == 0;
        }
      }
    }
  }
}

=== FILE: validation.dfy ===
/** The business-rule validators. Each returns `Pass` or the failure the
    validator throws; "now" is a parameter. */
module Validation {
  import opened Outcomes
  import opened Calendar
  import opened Strings
  import opened StayEntity
  import opened GuestEntity
  import StayQueries
  import Rates
  import Calculator

  /** A guest may check in unless it already has an open stay. */
  function CheckinAllowed(stays: seq<Stay>, g: Guest): (r: Outcome)
    ensures r.Fail? <==> g.id.Some? && exists i :: 0 <= i < |stays| && StayQueries.IsOpenStayOf(stays[i], g.id.value)
    ensures r.Fail? ==> r.error == GuestAlreadyInHotel(g.name)
  {
    if g.id.Some? && StayQueries.HasOpenStay(stays, g.id.value) then Fail(GuestAlreadyInHotel(g.name)) else Pass
  }

  /** Only an open stay may be updated. */
  function CheckinUpdatable(c: Stay): (r: Outcome)
    ensures r == Pass <==> IsActive(c)
    ensures r.Fail? ==> r.error == IllegalState(UpdateOfFinished)
  {
    if c.exit.Some? then Fail(IllegalState(UpdateOfFinished)) else Pass
  }

  /** Only an open stay may be checked out. */
  function CheckoutAllowed(c: Stay): (r: Outcome)
    ensures r == Pass <==> IsActive(c)
    ensures r.Fail? ==> r.error == IllegalState(AlreadyFinished)
  {
    if c.exit.Some? then Fail(IllegalState(AlreadyFinished)) else Pass
  }

  /** Entry required, exit not before entry, entry at most one day ahead
      of `now`; checked in that order. */
  function DatesConsistent(entry: Option<DateTime>, exit: Option<DateTime>, now: DateTime): (r: Outcome)
    ensures r == Pass <==>
      entry.Some? && (exit.None? || !IsBefore(exit.value, entry.value))
      && !IsBefore(PlusDays(now, 1), entry.value)
    ensures entry.None? ==> r == Fail(IllegalArgument(EntryRequired))
    ensures entry.Some? && exit.Some? && IsBefore(exit.value, entry.value) ==> r == Fail(IllegalArgument(ExitBeforeEntry))
    ensures r == Fail(IllegalArgument(EntryTooFarAhead)) <==>
      entry.Some? && (exit.None? || !IsBefore(exit.value, entry.value))
      && IsBefore(PlusDays(now, 1), entry.value)
  {
    if entry.None? then Fail(IllegalArgument(EntryRequired))
    else if exit.Some? && IsBefore(exit.value, entry.value) then Fail(IllegalArgument(ExitBeforeEntry))
    else if IsBefore(PlusDays(now, 1), entry.value) then Fail(IllegalArgument(EntryTooFarAhead))
    else Pass
  }

  /** Dates that pass the check always cost at least one weekday night. */
  lemma ConsistentDatesBillAtLeastOneNight(entry: DateTime, exit: DateTime, now: DateTime, vehicle: bool)
    requires DatesConsistent(Some(entry), Some(exit), now) == Pass
    ensures Calculator.Value(Some(entry), Some(exit), vehicle, now) >= Rates.WeekdayRate
  {}

  /** Leaving at the very moment of arrival is consistent. */
  lemma ExitAtEntryIsConsistent(t: DateTime, now: DateTime)
    requires !IsBefore(PlusDays(now, 1), t)
    ensures DatesConsistent(Some(t), Some(t), now) == Pass
  {}

  /** The regex `(\d)\1{10}`, matched against a whole string: one digit
      written eleven times. */
  predicate RepeatsOneDigit(s: string) {
    |s| == 11 && IsDigit(s[0]) && forall k :: 0 <= k < |s| ==> s[k] == s[0]
  }

  /** Document: present and not blank; eleven digits once everything else
      is stripped; not a single digit repeated. */
  function DocumentFormat(document: Option<string>): (r: Outcome)
    ensures r == Pass <==>
      document.Some? && !IsBlank(document.value)
      && |StripNonDigits(document.value)| == 11 && !RepeatsOneDigit(StripNonDigits(document.value))
    ensures r == Fail(IllegalArgument(DocumentRequired)) <==> document.None? || IsBlank(document.value)
    ensures r == Fail(IllegalArgument(DocumentNotElevenDigits)) <==>
      document.Some? && !IsBlank(document.value) && |StripNonDigits(document.value)| != 11
    ensures r == Fail(IllegalArgument(DocumentAllSameDigit)) <==>
      document.Some? && !IsBlank(document.value)
      && |StripNonDigits(document.value)| == 11 && RepeatsOneDigit(StripNonDigits(document.value))
  {
    if document.None? || IsBlank(document.value) then Fail(IllegalArgument(DocumentRequired))
    else
      var digits := StripNonDigits(document.value);
      if |digits| != 11 then Fail(IllegalArgument(DocumentNotElevenDigits))
      else if RepeatsOneDigit(digits) then Fail(IllegalArgument(DocumentAllSameDigit))
      else Pass
  }

  /** Phone: present and not blank; ten or eleven digits once everything
      else is stripped. */
  function PhoneFormat(phone: Option<string>): (r: Outcome)
    ensures r == Pass <==>
      phone.Some? && !IsBlank(phone.value) && 10 <= |StripNonDigits(phone.value)| <= 11
    ensures r == Fail(IllegalArgument(PhoneRequired)) <==> phone.None? || IsBlank(phone.value)
    ensures r.Fail? ==> r.error == IllegalArgument(PhoneRequired) || r.error == IllegalArgument(PhoneNotTenOrElevenDigits)
  {
    if phone.None? || IsBlank(phone.value) then Fail(IllegalArgument(PhoneRequired))
    else
      var digits := StripNonDigits(phone.value);
      if |digits| < 10 || |digits| > 11 then Fail(IllegalArgument(PhoneNotTenOrElevenDigits))
      else Pass
  }

  /** Punctuation is ignored: inserting a separator anywhere into a
      document or a phone number never changes the verdict, because only
      its digits are counted. */
  lemma SeparatorsIgnored(s: string, k: nat, c: char)
    requires k <= |s| && !IsDigit(c) && c > ' '
    requires !IsBlank(s)
    ensures DocumentFormat(Some(s[..k] + [c] + s[k..])) == DocumentFormat(Some(s))
    ensures PhoneFormat(Some(s[..k] + [c] + s[k..])) == PhoneFormat(Some(s))
  {
    SeparatorIsStripped(s, k, c);
  }

  /** A non-digit that is not blank adds no digit and makes the text non-blank. */
  lemma SeparatorIsStripped(s: string, k: nat, c: char)
    requires k <= |s| && !IsDigit(c) && c > ' '
    ensures StripNonDigits(s[..k] + [c] + s[k..]) == StripNonDigits(s)
    ensures !IsBlank(s[..k] + [c] + s[k..])
  {
    var a, b := s[..k], s[k..];
    assert a + b == s;
    StripAroundNonDigit(a, b, c);
    assert (a + [c] + b)[k] == c;
  }

  /** The stripping steps around one non-digit, kept free of slicing. */
  lemma StripAroundNonDigit(a: string, b: string, c: char)
    requires !IsDigit(c)
    ensures StripNonDigits(a + [c] + b) == StripNonDigits(a + b)
  {
    NonDigitStripsAway(c);
    StripConcat(a, [c]);
    StripConcat(a + [c], b);
    StripConcat(a, b);
    assert StripNonDigits(a) + "" == StripNonDigits(a);
  }

  lemma NonDigitStripsAway(c: char)
    requires !IsDigit(c)
    ensures StripNonDigits([c]) == ""
  {
    assert [c][0] == c && [c][1..] == "";
  }
}
